=== FILE: README.md ===
# Current-affairs quiz pipeline, modelled in Dafny

This project models the deterministic core of a scheduled job. The job
scrapes the daily "current affairs" quiz pages of the running month. It
stores one document per question in a store partitioned by year and month,
skipping days it already holds. It translates the text fields of each
question, then posts each newly stored question as a Telegram quiz poll.

Everything the job hands to a library or a remote service becomes a
parameter or a trace:

- the day-page request is a function `Fetch` from URL to the page's
  question blocks, or `None` when the request fails;
- the translation service is a function `Service` from a text to the
  responses it gives to successive attempts;
- `urljoin` is a parameter `join`;
- Telegram's answer to a poll is a parameter `accepts`;
- the clock is the month number, passed in;
- the sleeps are `Sleep` events in the traces that `Translator.Translate`
  and `Publisher.PublishAll` return.

Modules, one per component:

| file | module | models |
|---|---|---|
| wrappers.dfy | `Wrappers` | `Option` for Python's `None`; `AllPresent` for a comprehension that dereferences every entry |
| strings.dfy | `Strings` | the string operations the code uses: slicing, `in`, `split`, `split(c, 1)[-1]`, `rsplit(c, 1)[0]`, `rstrip`, `upper` |
| translator.dfy | `Translator` | `GoogleTranslatorWrapper.translate`: at most 3 attempts, with a 2-second sleep after every failure and the original text as fallback |
| store.dfy | `Store` | `MongoDBManager`: collections named `year.month` that are only ever appended to |
| parser.dfy | `Parser` | extraction from one question block: the correct-letter marker and the stored answer index |
| links.dfy | `Links` | the month digits, the link filter and the day key taken from the URL |
| publisher.dfy | `Publisher` | `truncate_text`, `send_poll` and the publish loop |
| pipeline.dfy | `Pipeline` | `scrape_questions_to_mongodb` and `main` |

In six places the code does something other than what a job of this kind
would be expected to do. The model follows the code:

- A failed day-page request would be expected to lose only that day. In
  the code, the exception escapes the link loop and the scrape returns `[]`.
  Documents already inserted in that run stay in the store. A later run
  skips their day, so they are never published
  (`Pipeline.FetchFailureNotPublished`).
- A stored answer index would be expected to lie inside the option list.
  The code maps the upper-cased marker through a fixed A–D table, so a "D"
  marker on a block with three options is stored as 3
  (`Pipeline.StoredIndexOutOfRange`).
- The day key would be expected to be the last path segment. The code
  unpacks the last four `/`-separated segments. For a URL that ends in `/`,
  the last segment is empty: the day key is "", and the year and month
  fields hold the section ("current-affairs") and date segments
  (`Links.TrailingSlashShifts`, `Pipeline.DatePageFiled`). A URL ending in
  `//` files under an empty month, whose collection name the driver rejects,
  and the whole scrape raises (`Pipeline.DoubleSlashRaises`).
- The year in the link filter is the constant "2024", not the current year.
- The store connection would be expected to be released on every exit
  path. The code closes it only when the link loop finishes normally.
- Only the documents inserted by the current run are published, never
  older unpublished ones.

## Model

| member | source | states |
|---|---|---|
| Translator.Translate | main.py:36-47 | if attempt m < 3 is the first to succeed, the result is that attempt's text, and the trace is attempts 0 to m−1, each followed at once by a 2-second sleep, then attempt m (m+1 attempts, m sleeps, 2·m seconds); if all three attempts fail, the result is the original text and the trace is three attempts, each followed by its sleep |
| Translator.SucceedsFrom | main.py:38-43 | counted from attempt k, the first success at attempt m returns its text after the failed attempts k to m−1, each followed by its sleep, and then attempt m |
| Translator.ExhaustedFrom | main.py:38-47 | counted from attempt k, when every remaining attempt fails the original text comes back after attempts k to 2, each followed by its sleep |
| Translator.ErrorKindsAlike | main.py:41-46 | a `RequestError` and any other exception are handled identically: two response sequences that differ only in the kind of failure give the same text and the same trace |
| Translator.AlwaysFailingService | main.py:47 | a service that never succeeds leaves the text unchanged, after exactly three attempts and three sleeps |
| Strings.Prefix | main.py:75 | Python's `s[:k]` yields a prefix of `s`; its length is `k` when `0 <= k <= |s|`, and a negative `k` counts from the end |
| Strings.Contains | main.py:122 | the substring test holds exactly when the pattern occurs at some position |
| Strings.Split | main.py:132 | `split('/')` gives one more piece than there are separators; no piece contains the separator; joining the pieces back gives the input |
| Strings.SplitUnique | main.py:132 | any separator-free pieces that join to `s` are exactly `Split(s)`, so the three properties above determine `split` |
| Strings.RStrip | main.py:133 | `rstrip('/')` yields a prefix that does not end in `/`, and only `/` characters were removed |
| Strings.RStripAbsent | main.py:133 | stripping a character that does not occur changes nothing |
| Strings.AfterFirst | main.py:156 | `split('{', 1)[-1]` is what follows the first `{`, or the whole string when there is none |
| Strings.BeforeLast | main.py:156 | `rsplit('}', 1)[0]` is what precedes the last `}`, or the whole string when there is none |
| Wrappers.AllPresent | main.py:153 | the option list exists exactly when every option row has its value node, and it holds those values in row order |
| Store.CollectionNameInjective | main.py:54-55 | the collection reached by a year and then a month is named `year.month`; for years without a dot, two names are equal exactly when both the years and the months are equal |
| Store.Collection | main.py:54-55 | an empty year or month segment makes the lookup raise, and non-empty segments without dots, `$` or NUL always give the collection `year.month` |
| Store.EmptySegmentInvalid | main.py:54-55 | the driver rejects the year or the `year.month` name whenever either segment is empty: the name is empty or ends in a dot |
| Store.PlainSegmentsValid | main.py:54-55 | plain segments pass the driver check both alone and joined as `year.month`: no "..", no edge dot, no `$`, no NUL |
| Store.DistinctMonths | main.py:54-55 | two different months of the same year are two different collections |
| Store.NamesCollide | main.py:54-55 | names are not injective: the year "a.b" with month "c" and the year "a" with month "b.c" share one collection |
| Store.FindByDay | main.py:136 | `find_one({"day": day})` finds a document exactly when the partition holds one with that day, and what it returns comes from that partition and carries that day |
| Store.Insert | main.py:57-58 | an insert appends the document to its own partition, creating the partition if needed, and leaves every other partition unchanged |
| Store.InsertIsolated | main.py:54-58 | a document inserted into one collection is invisible to the day lookup of any other collection |
| Store.InsertKeepsDays | main.py:57-58 | inserting never removes a day that was present |
| Parser.ExtractMarker | main.py:155-156 | a missing hidden input or `value` attribute gives ""; a value with no braces is returned unchanged |
| Parser.MarkerBetweenBraces | main.py:156 | for a value p{x}s, where p has no `{` and s has no `}`, the marker is exactly x, whatever braces x contains |
| Parser.ParseBlock | main.py:149-159 | a block yields fields exactly when its question, every option value and its explanation are present; the fields are those texts and the extracted marker; a missing marker is not an error |
| Parser.ScrapeIndex | main.py:165-167 | the stored index is in 0..3; it is the position of the upper-cased marker among A–D, and 0 for any other marker, the empty one included |
| Strings.Upper | main.py:166 | upper-casing keeps the length, turns each ASCII lower-case letter into its capital and leaves every other character alone, so no lower-case letter remains |
| Strings.UpperIdempotent | main.py:166 | upper-casing twice is upper-casing once |
| Parser.ScrapeIndexOfLetter | main.py:165-167 | both the upper-case and the lower-case form of the i-th letter of A–D are stored as i |
| Links.MonthDigits | main.py:104-107 | the month is two decimal digits whose value is the month number |
| Links.FilterLinks | main.py:119-124 | every matching href is kept, after being resolved; every kept link comes from a matching href; no more links come out than went in |
| Links.FilterLinksAppend | main.py:119-124 | the filter keeps page order: filtering a concatenation gives the concatenation of the filtered parts |
| Links.DiscoverLinks | main.py:117-124 | link discovery fails, because the `in` test raises, exactly when some anchor has no `href`; otherwise the links are the filter of the hrefs in page order, duplicates kept: the resolved hrefs that contain "/current-affairs/2024-MM-" |
| Links.SplitDayKey | main.py:132-133 | the unpacking fails exactly when the URL has fewer than three slashes; otherwise year, month and day are slash-free and end the URL as /year/month/day, so the `rstrip` never changes the day |
| Links.DayKeyOfSegments | main.py:132-133 | any URL that ends in three slash-free segments is filed under exactly those segments |
| Links.TrailingSlashShifts | main.py:132-133 | for a URL ending in `/`, the day key is "" and the year and month fields are the two segments before it |
| Publisher.Truncate | main.py:74-75 | for a limit m ≥ 3, a text longer than m becomes its first m−3 characters plus "...", of length exactly m; a text of at most m characters is unchanged; so the result never exceeds m |
| Publisher.TruncateIdempotent | main.py:74-75 | truncating twice with the same limit (≥ 3) is the same as truncating once |
| Publisher.TruncateBelowThree | main.py:75 | below a limit of 3 the bound fails: "abc" with limit 2 becomes "ab..." |
| Publisher.ResolveLetter | main.py:83-89 | a marker resolves to i exactly when it is the single character chr(65+i) with i below the option count |
| Publisher.LetterMapLookup | main.py:83 | `LetterMap`, the label dictionary the code builds (the one-character string of code point 65+i maps to i, for i below the option count), answers every lookup as `ResolveLetter` does |
| Publisher.LabelResolves | main.py:83-86 | the label chr(65+i) of option i resolves to i |
| Publisher.LowercaseUnresolved | main.py:86-89 | with at most 32 options, a lower-case letter resolves to nothing, so the document is skipped |
| Publisher.BuildPoll | main.py:77-99 | a poll is built exactly when the marker resolves; its question is the document's question truncated to 300, each option the document's option truncated to 100 (the count is kept), its explanation the document's explanation truncated to 200, so all lengths are within those limits; its answer index is the marker's resolved position; it is anonymous and of quiz type |
| Publisher.PublishAll | main.py:191-195 | there is exactly one pause per document and at most one send per document; every pause lasts 3 seconds; every send is immediately followed by a pause; the trace ends with a pause |
| Publisher.PublishOneShape | main.py:194-195 | `PublishOne`, one document: exactly one 3-second pause, last, preceded by its poll when the marker resolves and by nothing otherwise |
| Publisher.PublishedPolls | main.py:85-102 | the polls sent are, in order, the polls of the documents whose marker resolves |
| Publisher.PublishAppend | main.py:193-195 | documents are published independently: publishing a concatenation concatenates the traces |
| Publisher.PublishSendsResolvable | main.py:85-102 | exactly the documents whose marker resolves are sent, in order, each as its poll, whatever Telegram answers to earlier sends |
| Pipeline.TranslateText | main.py:161-163 | a stored text is the first successful translation among the three attempts, or the raw text when all three fail |
| Pipeline.BuildDoc | main.py:161-176 | a stored document's question, options (one per raw option, in order) and explanation are the translations of the raw texts; it carries the day key and the untranslated marker, and stores the scrape-time index (below 4) of the untranslated marker |
| Pipeline.PageDocs | main.py:148-182 | a page yields at most one document per block, each with the page's day key; a page without well-formed blocks yields none |
| Pipeline.PageDocsOne | main.py:148-177 | one block yields its built document when it is well-formed, and nothing otherwise |
| Pipeline.EmptyPageDocs | main.py:148-182 | a page yields no document exactly when none of its blocks is well-formed |
| Pipeline.PageDocsAppend | main.py:148-182 | blocks are handled independently and in page order: the documents of a concatenation of blocks are the concatenation of their documents |
| Pipeline.IngestBlocks | main.py:148-182 | inserting block by block appends exactly the page's documents to the day's partition and changes no other partition; when there is nothing to insert, the store is untouched |
| Pipeline.IngestLinkSpec | main.py:131-146 | `IngestLink`, one turn of the link loop: a URL that cannot be split, or whose year and month name no valid collection, raises; a day already in its collection is skipped without a fetch; a failed fetch of a new day ends the loop; otherwise the page's documents are appended to the collection `year.month` and no other collection changes |
| Pipeline.EmptySegmentRaises | main.py:132-135 | a URL whose year or month segment is empty raises at the collection lookup |
| Pipeline.DoubleSlashRaises | main.py:132-135 | a URL ending in `<date>//` files under the month "" and raises |
| Pipeline.DatePageFiled | main.py:132-135 | a URL `…/<section>/<date>/` with plain segments is filed: its day key is (section, date, "") and its collection is `section.date` |
| Pipeline.LinkStep | main.py:131-146 | `IngestLinks`, one turn: a raising link ends the loop with nothing fetched; a failing fetch ends it with that page fetched; both leave the store as it was and log no insertion; a skipped link changes nothing and the loop goes on; an ingested link's page is fetched and its documents logged under its collection, then the loop goes on from the grown store |
| Pipeline.IngestLinksFetches | main.py:131-182 | `IngestLinks`: every page fetched comes from the link list; all but the last loaded; the last failed exactly when the loop ended on a fetch failure |
| Pipeline.IngestLinksRaises | main.py:131-182 | `IngestLinks`: the loop raises only on a link that is not filed, and finishes when every link is filed and every page loads |
| Pipeline.IngestedEffect | main.py:131-146 | one ingested link adds its page's documents to its own collection and nothing to any other |
| Pipeline.IngestAccounts | main.py:131-182 | whatever the outcome, every partition after the link loop is the partition before it followed by exactly the documents logged for it, in insertion order |
| Pipeline.KeepsDays | main.py:178 | a day present before the link loop is present after it |
| Pipeline.StoredDayNotFetched | main.py:135-142 | a URL whose day is already stored in its partition is never fetched |
| Pipeline.FinishedSettles | main.py:131-182 | after a loop that finishes, every link's day is stored, or the link's page has no well-formed block |
| Pipeline.SettledIsQuiet | main.py:135-182 | over such settled links the loop finishes, inserts nothing and leaves the store as it was |
| Pipeline.Idempotent | main.py:131-182 | running the loop again against the same pages, on the store a finished run left, inserts nothing |
| Pipeline.ScrapeQuestions | main.py:109-189 | a failed index request returns [] and leaves the store alone; an anchor without `href` raises before anything is inserted; otherwise the store, the log and the fetched pages are those of the link loop, and the result is the inserted documents in order when the loop finishes, [] when a day page fails to load, and an escaping exception when a link raises; in every case the store grows by exactly the logged insertions |
| Pipeline.RunOnce | main.py:197-202 | an escaping exception publishes nothing; publishing happens only after something was inserted, with one pause per inserted document; the store grows by exactly the logged insertions |
| Pipeline.FetchFailureNotPublished | main.py:187-200 | after a day-page fetch failure nothing is published, yet the documents inserted before the failure are in the log and in the store |
| Pipeline.FinishedPublishesInserted | main.py:193-200 | after a finished scrape, the polls sent are those of the inserted documents whose marker resolves, in order, with one pause per inserted document |
| Pipeline.ResolvedIndexAgrees | main.py:165-167 | where the publish-time rule resolves a marker to one of the first four options, the stored index is the same |
| Pipeline.AnswerRulesDisagree | main.py:83-89 | where the two rules part: "b" is stored as 1 but not resolved at publish time, and "" is stored as 0 but not resolved either |
| Pipeline.StoredIndexOutOfRange | main.py:165-174 | a "D" marker on a block with three options is stored as 3, an index equal to the option count, and the document is never published |
| Pipeline.TwoBlockPage | main.py:148-195 | a page of two blocks, one with four options and marker …{B}… and one without an options container, yields one document stored with index 1; publishing it sends one poll with answer 1, followed by one pause |

## Left out

- HTML parsing with BeautifulSoup: each question block arrives as the
  extracted, already `strip()`ped texts of the elements the code looks
  for, with `None` for a missing element.
- HTTP requests (including `raise_for_status`): a request either fails or
  yields the page. The disabled certificate check is not modelled.
- `urljoin`: it is the parameter `join`, and no property of it is assumed.
- The MongoDB client: it is replaced by a map from collection name to a
  sequence of documents. The name is the one pymongo gives `db[year][month]`,
  the year and the month joined by a dot. The driver's name check
  (`Store.ValidName`) follows pymongo 4's rule for collection names; the
  driver's code is not part of this model. Every rejection is an
  `InvalidName` that escapes the scrape. `get_question_collections` and
  `get_questions_from_collection` (main.py:60-64) are not modelled, because
  the flow never calls them. A failing insert (an exception inside the
  block's `try`) is not modelled.
- `close_connection` (main.py:66-67, 184): releasing a connection has no
  value-level meaning here. On the fetch-failure path and on an escaping
  exception it is skipped.
- Google Translate: an oracle giving the responses to successive attempts.
  A response missing from the oracle counts as a failed attempt. The
  translator's sleeps during the scrape are in `Translator.Translate`'s own
  trace. They are not copied into the run's trace.
- `str.upper()`: `Strings.Upper` upper-cases ASCII letters only. Python
  upper-cases all of Unicode.
- The Telegram Bot API: `accepts` tells whether a poll was delivered. A
  failed delivery (`TelegramError`) changes nothing in the model. Other
  exceptions raised by the bot are not modelled.
- Publisher.ResolveLetter: does not model the `ValueError` that `chr`
  raises when there are more than 1,114,047 options. For any shorter
  option list it is exact.
- The clock: `datetime.now` in the Asia/Kolkata zone becomes the month
  argument (1–12). `time.sleep` and `asyncio.sleep` become `Sleep` events.
- The keep-alive HTTP server (main.py:204-217), reading configuration from
  the environment, and logging.
- Driver failures are not modelled: a failing `MongoClient` constructor
  (main.py:127) and a failing `find_one` (main.py:136), for example when
  the server is unreachable. Neither raises a `RequestException`, so in the
  source both would escape the scrape, as `InvalidName` does (the `Raised`
  status). An anchor without `href` and a URL with
  fewer than three slashes both make the scrape raise. Both are modelled,
  as `DiscoverLinks` returning `None` and the `Raised` status.

=== FILE: links.dfy ===
/**
 * Link discovery and the day key: which anchors of the index page are day
 * pages of the current month, and how a day-page URL names its collection
 * and day.
 */
module Links {
  import opened Wrappers
  import opened Strings

  /** `get_current_month`: the month number as two decimal digits. */
  function MonthDigits(month: int): (r: string)
    requires 1 <= month <= 12
    ensures |r| == 2 && '0' <= r[0] <= '9' && '0' <= r[1] <= '9'
    ensures (r[0] as int - '0' as int) * 10 + (r[1] as int - '0' as int) == month
  {
    if month < 10 then ['0', ('0' as int + month) as char]
    else ['1', ('0' as int + month - 10) as char]
  }

  /** The year is fixed in the filter, not taken from the clock. */
  const Year: string := "2024"

  /** The substring a day page of the given month has in its `href`. */
  function LinkPattern(monthDigits: string): string {
    "/current-affairs/" + Year + "-" + monthDigits + "-"
  }

  /**
   * The hrefs that contain `pattern`, each resolved against the site root
   * by `join` (standing for `urljoin`), in page order.
   */
  function FilterLinks(hrefs: seq<string>, pattern: string, join: string -> string): (r: seq<string>)
    ensures |r| <= |hrefs|
    ensures forall i :: 0 <= i < |hrefs| && Contains(hrefs[i], pattern) ==> join(hrefs[i]) in r
    ensures forall x :: x in r ==> exists i :: 0 <= i < |hrefs| && Contains(hrefs[i], pattern) && x == join(hrefs[i])
    decreases |hrefs|
  {
    if |hrefs| == 0 then []
    else
      var rest := FilterLinks(hrefs[1..], pattern, join);
      assert forall i :: 1 <= i < |hrefs| ==> hrefs[i] == hrefs[1..][i - 1];
      (if Contains(hrefs[0], pattern) then [join(hrefs[0])] else []) + rest
  }

  /** The filter keeps page order: filtering a concatenation concatenates the results. */
  lemma {:induction false} FilterLinksAppend(a: seq<string>, b: seq<string>, pattern: string, join: string -> string)
    ensures FilterLinks(a + b, pattern, join) == FilterLinks(a, pattern, join) + FilterLinks(b, pattern, join)
    decreases |a|
  {
    if |a| == 0 {
      assert a + b == b;
    } else {
      assert (a + b)[1..] == a[1..] + b;
      FilterLinksAppend(a[1..], b, pattern, join);
    }
  }

  /**
   * The valid links of the index page. An anchor without `href` makes the
   * substring test raise a `TypeError` the scraper does not catch: `None`.
   */
  function DiscoverLinks(hrefs: seq<Option<string>>, month: int, join: string -> string): (r: Option<seq<string>>)
    requires 1 <= month <= 12
    ensures r.None? <==> exists i :: 0 <= i < |hrefs| && hrefs[i].None?
    ensures r.Some? ==> r.value == FilterLinks(AllPresent(hrefs).value, LinkPattern(MonthDigits(month)), join)
    ensures r.Some? ==> forall x :: x in r.value ==>
      exists i :: 0 <= i < |hrefs| && Contains(hrefs[i].value, LinkPattern(MonthDigits(month))) && x == join(hrefs[i].value)
    ensures r.Some? ==> forall i :: 0 <= i < |hrefs| && Contains(hrefs[i].value, LinkPattern(MonthDigits(month))) ==>
      join(hrefs[i].value) in r.value
  {
    match AllPresent(hrefs)
    case None => None
    case Some(present) => Some(FilterLinks(present, LinkPattern(MonthDigits(month)), join))
  }

  /** The three path segments a day-page URL is filed under. */
  datatype DayKey = DayKey(year: string, month: string, day: string)

  lemma {:induction false} JoinLast(parts: seq<string>, c: char)
    requires |parts| >= 2
    ensures Join(parts, c) == Join(parts[..|parts| - 1], c) + [c] + parts[|parts| - 1]
    decreases |parts|
  {
    if |parts| > 2 {
      var init := parts[..|parts| - 1];
      JoinLast(parts[1..], c);
      assert parts[1..][..|parts| - 2] == init[1..];
      assert init[0] == parts[0];
    }
  }

  /**
   * The day key of a URL: the URL is split at every slash, the last three
   * pieces become year, month and day, and trailing slashes are stripped
   * from the day. `None` when the URL has fewer than three slashes, so that
   * fewer than four pieces are there to unpack and the unpacking raises.
   * Otherwise the three segments are slash-free and close the URL, so the
   * `rstrip` never changes the day.
   */
  function SplitDayKey(url: string): (r: Option<DayKey>)
    ensures r.None? <==> CountChar(url, '/') < 3
    ensures r.Some? ==> '/' !in r.value.year && '/' !in r.value.month && '/' !in r.value.day
    ensures r.Some? ==> exists pre: string ::
      url == pre + "/" + r.value.year + "/" + r.value.month + "/" + r.value.day
  {
    var parts := Split(url, '/');
    var n := |parts|;
    if n < 4 then None
    else
      RStripAbsent(parts[n - 1], '/');
      DayKeySuffix(parts);
      Some(DayKey(parts[n - 3], parts[n - 2], RStrip(parts[n - 1], '/')))
  }

  lemma DayKeySuffix(parts: seq<string>)
    requires |parts| >= 4
    ensures var n := |parts|;
      Join(parts, '/') == Join(parts[..n - 3], '/') + "/" + parts[n - 3] + "/" + parts[n - 2] + "/" + parts[n - 1]
  {
    var n := |parts|;
    var p1, p2, p3 := parts[..n - 1], parts[..n - 2], parts[..n - 3];
    var a, b, c := Join(p3, '/'), Join(p2, '/'), Join(p1, '/');
    assert p2[..n - 3] == p3 && p2[n - 3] == parts[n - 3];
    JoinLast(p2, '/');
    assert b == a + "/" + parts[n - 3];
    assert p1[..n - 2] == p2 && p1[n - 2] == parts[n - 2];
    JoinLast(p1, '/');
    assert c == b + "/" + parts[n - 2];
    JoinLast(parts, '/');
    assert Join(parts, '/') == c + "/" + parts[n - 1];
  }

  /**
   * The converse: any URL ending in three slash-free segments is filed under
   * exactly those segments.
   */
  lemma DayKeyOfSegments(pre: string, year: string, month: string, day: string)
    requires '/' !in year && '/' !in month && '/' !in day
    ensures SplitDayKey(pre + "/" + year + "/" + month + "/" + day) == Some(DayKey(year, month, day))
  {
    var url := pre + "/" + year + "/" + month + "/" + day;
    var head := Split(pre, '/');
    var parts := head + [year, month, day];
    var n := |parts|;
    assert parts[..n - 3] == head;
    DayKeySuffix(parts);
    assert Join(parts, '/') == url;
    SplitUnique(parts, '/');
    RStripAbsent(day, '/');
  }

  /**
   * A URL with a trailing slash has an empty last segment, so every field
   * shifts one segment left and the day key is "".
   */
  lemma TrailingSlashShifts(pre: string, year: string, month: string)
    requires '/' !in year && '/' !in month
    ensures SplitDayKey(pre + "/" + year + "/" + month + "/") == Some(DayKey(year, month, ""))
  {
    assert pre + "/" + year + "/" + month + "/" == pre + "/" + year + "/" + month + "/" + "";
    DayKeyOfSegments(pre, year, month, "");
  }
}

=== FILE: parser.dfy ===
/**
 * The per-block extraction of the day-page scraper. Markup parsing is not
 * modelled: a block arrives as the already-extracted, already-stripped
 * texts of the elements the scraper looks for, `None` marking an element
 * that is missing.
 */
module Parser {
  import opened Wrappers
  import opened Strings

  /** The hidden `jq-hdnakq` input; `value` is `None` when the attribute is missing. */
  datatype HiddenInput = HiddenInput(value: Option<string>)

  /**
   * One `bix-div-container` block: the question text, the option rows of the
   * options container (each row's option value, if it has one), the hidden
   * marker input, and the answer description.
   */
  datatype Block = Block(
    questionText: Option<string>,
    optionRows: Option<seq<Option<string>>>,
    hidden: Option<HiddenInput>,
    explanation: Option<string>)

  /** The untranslated fields of one well-formed block. */
  datatype RawQuestion = RawQuestion(
    question: string,
    options: seq<string>,
    valueInBraces: string,
    explanation: string)

  /**
   * The correct-letter marker: the text between the first `{` and the last
   * `}` after it, or "" when the input or its `value` attribute is missing.
   */
  function ExtractMarker(hidden: Option<HiddenInput>): (r: string)
    ensures hidden.None? || hidden.value.value.None? ==> r == ""
    ensures hidden.Some? && hidden.value.value.Some? ==>
      var v := hidden.value.value.value;
      '{' !in v && '}' !in v ==> r == v
  {
    match hidden
    case Some(HiddenInput(Some(v))) => BeforeLast(AfterFirst(v, '{'), '}')
    case _ => ""
  }

  /** A value of the form `p{x}s`, with no `{` in `p` and no `}` in `s`, yields `x`. */
  lemma MarkerBetweenBraces(p: string, x: string, s: string)
    requires '{' !in p && '}' !in s
    ensures ExtractMarker(Some(HiddenInput(Some(p + "{" + x + "}" + s)))) == x
  {
    var v := p + "{" + x + "}" + s;
    assert v == p + ['{'] + (x + ['}'] + s);
    AfterFirstAt(p, '{', x + ['}'] + s);
    BeforeLastAt(x, '}', s);
  }

  /** Well-formed: every element the extraction dereferences is present. */
  ghost predicate WellFormed(b: Block) {
    && b.questionText.Some?
    && b.optionRows.Some?
    && (forall i :: 0 <= i < |b.optionRows.value| ==> b.optionRows.value[i].Some?)
    && b.explanation.Some?
  }

  /**
   * The body of the per-block `try`: `None` when a missing element raises
   * (the block is then skipped), the extracted fields otherwise. A missing
   * marker is not an error.
   */
  function ParseBlock(b: Block): (r: Option<RawQuestion>)
    ensures r.Some? <==> WellFormed(b)
    ensures r.Some? ==>
      && r.value.question == b.questionText.value
      && |r.value.options| == |b.optionRows.value|
      && (forall i :: 0 <= i < |r.value.options| ==> r.value.options[i] == b.optionRows.value[i].value)
      && r.value.valueInBraces == ExtractMarker(b.hidden)
      && r.value.explanation == b.explanation.value
  {
    if b.questionText.None? || b.optionRows.None? then None
    else
      match AllPresent(b.optionRows.value)
      case None => None
      case Some(options) =>
        if b.explanation.None? then None
        else Some(RawQuestion(b.questionText.value, options, ExtractMarker(b.hidden), b.explanation.value))
  }

  /** The fixed letter-to-index table of the scraper. */
  const ScrapeLetters: string := "ABCD"

  /**
   * The stored `correct_option_id`: the position of the upper-cased marker
   * among A, B, C, D, and 0 for anything else, the empty marker included.
   */
  function ScrapeIndex(marker: string): (r: nat)
    ensures r < |ScrapeLetters|
    ensures Upper(marker) in {"A", "B", "C", "D"} ==> Upper(marker) == [ScrapeLetters[r]]
    ensures Upper(marker) !in {"A", "B", "C", "D"} ==> r == 0
  {
    var u := Upper(marker);
    if u == "B" then 1 else if u == "C" then 2 else if u == "D" then 3 else 0
  }

  /** Either case of the letters A to D gives its position. */
  lemma ScrapeIndexOfLetter(i: nat)
    requires i < 4
    ensures ScrapeIndex([ScrapeLetters[i]]) == i
    ensures ScrapeIndex([(ScrapeLetters[i] as int + 32) as char]) == i
  {
    var lower := [(ScrapeLetters[i] as int + 32) as char];
    assert Upper(lower) == [ScrapeLetters[i]];
    assert Upper([ScrapeLetters[i]]) == [ScrapeLetters[i]];
  }
}

=== FILE: pipeline.dfy ===
/**
 * The orchestration (`scrape_questions_to_mongodb` and `main`): discover the
 * month's day pages, skip days already stored, insert one translated
 * document per well-formed block, and publish what this run inserted.
 * Fetches, the translation service and Telegram are oracles passed in.
 */
module Pipeline {
  import opened Wrappers
  import opened Strings
  import opened Store
  import opened Parser
  import opened Links
  import T = Translator
  import P = Publisher

  /** The translation service's responses to the attempts for one text. */
  type Service = string -> seq<T.Response>

  /** A day-page fetch: the page's question blocks, or `None` when the request fails. */
  type Fetch = string -> Option<seq<Block>>

  /**
   * A text as the scraper stores it: the first successful translation among
   * the three attempts, or the text itself when all three fail.
   */
  function TranslateText(text: string, service: Service): (r: string)
    ensures forall m :: 0 <= m < T.MaxRetries && T.SucceedsAt(service(text), m) && T.FailsBetween(service(text), 0, m) ==>
      r == T.ResponseAt(service(text), m).text
    ensures T.FailsBetween(service(text), 0, T.MaxRetries) ==> r == text
  {
    T.Translate(text, service(text)).text
  }

  /**
   * The document inserted for a well-formed block: the three text fields
   * translated, the marker kept verbatim, the stored index computed from
   * the untranslated marker, and the day key attached.
   */
  function BuildDoc(raw: RawQuestion, day: string, service: Service): (d: Doc)
    ensures d.day == day
    ensures d.question == TranslateText(raw.question, service)
    ensures d.explanation == TranslateText(raw.explanation, service)
    ensures |d.options| == |raw.options|
    ensures forall i :: 0 <= i < |raw.options| ==> d.options[i] == TranslateText(raw.options[i], service)
    ensures d.valueInBraces == raw.valueInBraces
    ensures d.correctOptionId == ScrapeIndex(raw.valueInBraces) && d.correctOptionId < 4
  {
    Doc(
      TranslateText(raw.question, service),
      seq(|raw.options|, i requires 0 <= i < |raw.options| => TranslateText(raw.options[i], service)),
      raw.valueInBraces,
      TranslateText(raw.explanation, service),
      ScrapeIndex(raw.valueInBraces),
      day)
  }

  /** The documents of a page's well-formed blocks, in page order; malformed blocks add nothing. */
  function PageDocs(blocks: seq<Block>, day: string, service: Service): (r: seq<Doc>)
    ensures |r| <= |blocks|
    ensures forall i :: 0 <= i < |r| ==> r[i].day == day && r[i].correctOptionId < 4
    ensures (forall i :: 0 <= i < |blocks| ==> !WellFormed(blocks[i])) ==> r == []
    decreases |blocks|
  {
    if |blocks| == 0 then []
    else
      var rest := PageDocs(blocks[1..], day, service);
      assert forall i :: 1 <= i < |blocks| ==> blocks[i] == blocks[1..][i - 1];
      match ParseBlock(blocks[0])
      case None => rest
      case Some(raw) =>
        var d := BuildDoc(raw, day, service);
        DayDocsCons(d, rest, day);
        [d] + rest
  }

  /** Documents of one day with an index below 4, one more in front. */
  lemma DayDocsCons(d: Doc, rest: seq<Doc>, day: string)
    requires d.day == day && d.correctOptionId < 4
    requires forall i :: 0 <= i < |rest| ==> rest[i].day == day && rest[i].correctOptionId < 4
    ensures forall i :: 0 <= i < |[d] + rest| ==> ([d] + rest)[i].day == day && ([d] + rest)[i].correctOptionId < 4
  {
    forall i | 0 <= i < |[d] + rest|
      ensures ([d] + rest)[i].day == day && ([d] + rest)[i].correctOptionId < 4
    {
      if i > 0 {
        assert ([d] + rest)[i] == rest[i - 1];
      }
    }
  }

  /** One block: its document when it is well-formed, nothing otherwise. */
  lemma PageDocsOne(b: Block, day: string, service: Service)
    ensures PageDocs([b], day, service)
      == if WellFormed(b) then [BuildDoc(ParseBlock(b).value, day, service)] else []
  {
    assert [b][1..] == [];
  }

  /** A page yields no document exactly when none of its blocks is well-formed. */
  lemma {:induction false} EmptyPageDocs(blocks: seq<Block>, day: string, service: Service)
    ensures PageDocs(blocks, day, service) == [] <==> forall i :: 0 <= i < |blocks| ==> !WellFormed(blocks[i])
    decreases |blocks|
  {
    if |blocks| > 0 {
      EmptyPageDocs(blocks[1..], day, service);
      assert forall i :: 1 <= i < |blocks| ==> blocks[i] == blocks[1..][i - 1];
    }
  }

  /** Blocks are handled independently: a page's documents are its parts' documents, in order. */
  lemma {:induction false} PageDocsAppend(a: seq<Block>, b: seq<Block>, day: string, service: Service)
    ensures PageDocs(a + b, day, service) == PageDocs(a, day, service) + PageDocs(b, day, service)
    decreases |a|
  {
    if |a| == 0 {
      assert a + b == b;
    } else {
      assert (a + b)[0] == a[0];
      assert (a + b)[1..] == a[1..] + b;
      PageDocsAppend(a[1..], b, day, service);
    }
  }

  /**
   * The block loop: each well-formed block is inserted into partition `key`
   * as soon as it is built. The effect is one append of the page's documents
   * to that partition, and nothing anywhere else.
   */
  function IngestBlocks(blocks: seq<Block>, s: Store, key: PartitionKey, day: string, service: Service)
    : (r: (Store, seq<Doc>))
    ensures r.1 == PageDocs(blocks, day, service)
    ensures Partition(r.0, key) == Partition(s, key) + r.1
    ensures forall k :: k != key ==> Partition(r.0, k) == Partition(s, k)
    ensures r.1 == [] ==> r.0 == s
    decreases |blocks|
  {
    if |blocks| == 0 then (s, [])
    else
      match ParseBlock(blocks[0])
      case None =>
        assert PageDocs(blocks, day, service) == PageDocs(blocks[1..], day, service);
        IngestBlocks(blocks[1..], s, key, day, service)
      case Some(raw) =>
        var d := BuildDoc(raw, day, service);
        var s1 := Insert(s, key, d);
        var rest := IngestBlocks(blocks[1..], s1, key, day, service);
        assert PageDocs(blocks, day, service) == [d] + PageDocs(blocks[1..], day, service);
        InsertThenAppend(s, key, d, rest.0, rest.1);
        (rest.0, [d] + rest.1)
  }

  /** An insert followed by appends is one append. */
  lemma InsertThenAppend(s: Store, key: PartitionKey, d: Doc, s2: Store, more: seq<Doc>)
    requires Partition(s2, key) == Partition(Insert(s, key, d), key) + more
    requires forall k :: k != key ==> Partition(s2, k) == Partition(Insert(s, key, d), k)
    ensures Partition(s2, key) == Partition(s, key) + ([d] + more)
    ensures forall k :: k != key ==> Partition(s2, k) == Partition(s, k)
  {
    assert Partition(s, key) + [d] + more == Partition(s, key) + ([d] + more);
  }

  /** The collection a day is filed under. */
  function KeyOf(dk: DayKey): PartitionKey {
    CollectionName(dk.year, dk.month)
  }

  /** What one day link does to the run. */
  datatype LinkOutcome =
    | Crashed                 // the unpacking or the collection lookup raises
    | Skipped                 // the day is already stored: no fetch
    | Unreachable             // the day-page request failed
    | Ingested(store: Store, key: PartitionKey, docs: seq<Doc>)

  /** The URL splits into a day key whose year and month name a valid collection. */
  predicate Filed(url: string) {
    && SplitDayKey(url).Some?
    && Collection(SplitDayKey(url).value.year, SplitDayKey(url).value.month).Some?
  }

  /** One iteration of the link loop: split, collection lookup, dedupe check, fetch, insert. */
  function IngestLink(url: string, s: Store, fetch: Fetch, service: Service): LinkOutcome
  {
    match SplitDayKey(url)
    case None => Crashed
    case Some(dk) =>
      if Collection(dk.year, dk.month).None? then Crashed
      else
        var key := KeyOf(dk);
        if FindByDay(s, key, dk.day).Some? then Skipped
        else
          match fetch(url)
          case None => Unreachable
          case Some(blocks) =>
            var (s', docs) := IngestBlocks(blocks, s, key, dk.day, service);
            Ingested(s', key, docs)
  }

  /**
   * A URL that cannot be split, or whose year and month name no valid
   * collection, raises; a day already in its partition is
   * skipped without a fetch; a failed fetch of a new day ends the loop;
   * otherwise the page's documents are appended to the day's partition.
   */
  lemma IngestLinkSpec(url: string, s: Store, fetch: Fetch, service: Service)
    ensures var r := IngestLink(url, s, fetch, service);
      r.Crashed? <==> !Filed(url)
    ensures var r := IngestLink(url, s, fetch, service);
      Filed(url) ==>
        var dk := SplitDayKey(url).value;
        && (r.Skipped? <==> HasDay(s, KeyOf(dk), dk.day))
        && (r.Unreachable? <==> !HasDay(s, KeyOf(dk), dk.day) && fetch(url).None?)
        && (r.Ingested? ==>
            && fetch(url).Some?
            && r.key == KeyOf(dk)
            && r.docs == PageDocs(fetch(url).value, dk.day, service)
            && Partition(r.store, r.key) == Partition(s, r.key) + r.docs
            && (forall k :: k != r.key ==> Partition(r.store, k) == Partition(s, k))
            && (r.docs == [] ==> r.store == s))
  {
  }

  /** The effect of one ingested link on any partition. */
  lemma IngestedEffect(url: string, s: Store, fetch: Fetch, service: Service, k: PartitionKey)
    requires IngestLink(url, s, fetch, service).Ingested?
    ensures var r := IngestLink(url, s, fetch, service);
      Partition(r.store, k) == Partition(s, k) + (if k == r.key then r.docs else [])
  {
    IngestLinkSpec(url, s, fetch, service);
  }

  /** A day key with an empty year or month names no collection: the link raises. */
  lemma EmptySegmentRaises(url: string, s: Store, fetch: Fetch, service: Service)
    requires SplitDayKey(url).Some?
    requires SplitDayKey(url).value.year == [] || SplitDayKey(url).value.month == []
    ensures IngestLink(url, s, fetch, service).Crashed?
  {
    var dk := SplitDayKey(url).value;
    assert Collection(dk.year, dk.month).None?;
  }

  /**
   * A day page whose URL ends in two slashes files under the month "", so
   * the collection name ends in a dot and the whole scrape raises.
   */
  lemma DoubleSlashRaises(pre: string, date: string, s: Store, fetch: Fetch, service: Service)
    requires '/' !in date
    ensures IngestLink(pre + "/" + date + "//", s, fetch, service).Crashed?
  {
    DayKeyOfSegments(pre, date, "", "");
    assert pre + "/" + date + "/" + "" + "/" + "" == pre + "/" + date + "//";
    EmptySegmentRaises(pre + "/" + date + "//", s, fetch, service);
  }

  /**
   * The usual day page, `…/current-affairs/<date>/`, is filed: the section
   * becomes the year field, the date the month field, and the day key is "".
   */
  lemma DatePageFiled(pre: string, section: string, date: string)
    requires |section| > 0 && '/' !in section && '.' !in section && '$' !in section && '\0' !in section
    requires |date| > 0 && '/' !in date && '.' !in date && '$' !in date && '\0' !in date
    ensures var url := pre + "/" + section + "/" + date + "/";
      && Filed(url)
      && SplitDayKey(url) == Some(DayKey(section, date, ""))
      && KeyOf(SplitDayKey(url).value) == section + "." + date
  {
    DayKeyOfSegments(pre, section, date, "");
    assert pre + "/" + section + "/" + date + "/" + "" == pre + "/" + section + "/" + date + "/";
    assert PlainSegment(section) && PlainSegment(date);
    assert Collection(section, date).Some?;
  }

  /** How the link loop ended. */
  datatype Status = Finished | FetchFailed | Raised

  /** A document together with the partition it was inserted into. */
  datatype Inserted = Inserted(key: PartitionKey, doc: Doc)

  /** The loop's effect: the store, the insertions in order, the pages fetched, how it ended. */
  datatype Ingest = Ingest(store: Store, inserted: seq<Inserted>, fetched: seq<string>, status: Status)

  function Tag(key: PartitionKey, docs: seq<Doc>): (r: seq<Inserted>)
    ensures |r| == |docs|
  {
    seq(|docs|, i requires 0 <= i < |docs| => Inserted(key, docs[i]))
  }

  /** The documents of an insertion log, in order (the `new_questions` list). */
  function Docs(ins: seq<Inserted>): (r: seq<Doc>)
    ensures |r| == |ins|
  {
    seq(|ins|, i requires 0 <= i < |ins| => ins[i].doc)
  }

  /** The documents of an insertion log that went into partition `k`. */
  function DocsFor(ins: seq<Inserted>, k: PartitionKey): seq<Doc> {
    if |ins| == 0 then [] else (if ins[0].key == k then [ins[0].doc] else []) + DocsFor(ins[1..], k)
  }

  /**
   * The link loop. A day-page fetch failure ends the loop (the caller then
   * returns []), a bad URL raises; in both cases what was inserted before
   * stays inserted.
   */
  function IngestLinks(links: seq<string>, s: Store, fetch: Fetch, service: Service): (r: Ingest)
    ensures |r.fetched| <= |links|
    ensures r.status != Finished ==> |links| > 0
    decreases |links|
  {
    if |links| == 0 then Ingest(s, [], [], Finished)
    else
      match IngestLink(links[0], s, fetch, service)
      case Crashed => Ingest(s, [], [], Raised)
      case Unreachable => Ingest(s, [], [links[0]], FetchFailed)
      case Skipped => IngestLinks(links[1..], s, fetch, service)
      case Ingested(s1, key, docs) =>
        var rest := IngestLinks(links[1..], s1, fetch, service);
        Ingest(rest.store, Tag(key, docs) + rest.inserted, [links[0]] + rest.fetched, rest.status)
  }

  /**
   * The pages a loop over `links` requested: each comes from the link list;
   * all but the last loaded; the last failed exactly when the loop ended on
   * a fetch failure.
   */
  ghost predicate FetchLog(links: seq<string>, fetch: Fetch, r: Ingest) {
    && (forall i :: 0 <= i < |r.fetched| ==> r.fetched[i] in links)
    && (forall i :: 0 <= i < |r.fetched| - 1 ==> fetch(r.fetched[i]).Some?)
    && (r.status == FetchFailed <==> |r.fetched| > 0 && fetch(r.fetched[|r.fetched| - 1]).None?)
  }

  lemma {:induction false} IngestLinksFetches(links: seq<string>, s: Store, fetch: Fetch, service: Service)
    ensures FetchLog(links, fetch, IngestLinks(links, s, fetch, service))
    decreases |links|
  {
    if |links| > 0 {
      var o := IngestLink(links[0], s, fetch, service);
      var s1 := StoreAfter(o, s);
      LinkStep(links, s, fetch, service);
      IngestLinksFetches(links[1..], s1, fetch, service);
      FetchLogCons(links, fetch, o, IngestLinks(links, s, fetch, service), IngestLinks(links[1..], s1, fetch, service));
    }
  }

  lemma FetchLogCons(links: seq<string>, fetch: Fetch, o: LinkOutcome, r: Ingest, rest: Ingest)
    requires |links| > 0
    requires FetchLog(links[1..], fetch, rest)
    requires o.Crashed? ==> r.fetched == [] && r.status == Raised
    requires o.Unreachable? ==> r.fetched == [links[0]] && r.status == FetchFailed && fetch(links[0]).None?
    requires o.Skipped? ==> r.fetched == rest.fetched && r.status == rest.status
    requires o.Ingested? ==> r.fetched == [links[0]] + rest.fetched && r.status == rest.status && fetch(links[0]).Some?
    ensures FetchLog(links, fetch, r)
  {
    assert forall x :: x in links[1..] ==> x in links;
    if o.Ingested? {
      assert forall i :: 1 <= i < |r.fetched| ==> r.fetched[i] == rest.fetched[i - 1];
    }
  }

  /** One turn of the link loop, told through the outcome of its first link. */
  lemma LinkStep(links: seq<string>, s: Store, fetch: Fetch, service: Service)
    requires |links| > 0
    ensures var o := IngestLink(links[0], s, fetch, service);
      var r := IngestLinks(links, s, fetch, service);
      var rest := IngestLinks(links[1..], StoreAfter(o, s), fetch, service);
      && (o.Crashed? <==> !Filed(links[0]))
      && (o.Crashed? ==> r.fetched == [] && r.status == Raised)
      && (o.Unreachable? ==> r.fetched == [links[0]] && r.status == FetchFailed && fetch(links[0]).None?)
      && (o.Crashed? || o.Unreachable? ==> r.store == s && r.inserted == [])
      && (o.Skipped? ==> r == rest)
      && (o.Ingested? ==> r.fetched == [links[0]] + rest.fetched && r.status == rest.status && fetch(links[0]).Some?)
      && (o.Ingested? ==> r.store == rest.store && r.inserted == Tag(o.key, o.docs) + rest.inserted)
  {
    IngestLinkSpec(links[0], s, fetch, service);
  }

  /**
   * How a loop over `links` may end: it raises only on a link that is not
   * filed, and finishes when every link is filed and every page loads.
   */
  ghost predicate StatusLog(links: seq<string>, fetch: Fetch, r: Ingest) {
    && (r.status == Raised ==> exists i :: 0 <= i < |links| && !Filed(links[i]))
    && ((forall i :: 0 <= i < |links| ==> Filed(links[i]) && fetch(links[i]).Some?) ==> r.status == Finished)
  }

  lemma {:induction false} IngestLinksRaises(links: seq<string>, s: Store, fetch: Fetch, service: Service)
    ensures StatusLog(links, fetch, IngestLinks(links, s, fetch, service))
    decreases |links|
  {
    if |links| == 0 {
      assert IngestLinks(links, s, fetch, service).status == Finished;
    } else {
      var o := IngestLink(links[0], s, fetch, service);
      var s1 := StoreAfter(o, s);
      LinkStep(links, s, fetch, service);
      IngestLinksRaises(links[1..], s1, fetch, service);
      StatusLogCons(links, fetch, o, IngestLinks(links, s, fetch, service), IngestLinks(links[1..], s1, fetch, service));
    }
  }

  lemma StatusLogCons(links: seq<string>, fetch: Fetch, o: LinkOutcome, r: Ingest, rest: Ingest)
    requires |links| > 0
    requires StatusLog(links[1..], fetch, rest)
    requires o.Crashed? <==> !Filed(links[0])
    requires o.Crashed? ==> r.status == Raised
    requires o.Unreachable? ==> r.status == FetchFailed && fetch(links[0]).None?
    requires o.Skipped? || o.Ingested? ==> r.status == rest.status
    ensures StatusLog(links, fetch, r)
  {
    assert forall i :: 1 <= i < |links| ==> links[i] == links[1..][i - 1];
  }

  lemma {:induction false} DocsForAppend(a: seq<Inserted>, b: seq<Inserted>, k: PartitionKey)
    ensures DocsFor(a + b, k) == DocsFor(a, k) + DocsFor(b, k)
    decreases |a|
  {
    if |a| == 0 {
      assert a + b == b;
    } else {
      assert (a + b)[0] == a[0];
      assert (a + b)[1..] == a[1..] + b;
      DocsForAppend(a[1..], b, k);
      var h := if a[0].key == k then [a[0].doc] else [];
      assert DocsFor(a + b, k) == h + DocsFor(a[1..] + b, k);
      assert h + (DocsFor(a[1..], k) + DocsFor(b, k)) == (h + DocsFor(a[1..], k)) + DocsFor(b, k);
    }
  }

  lemma {:induction false} DocsForTag(key: PartitionKey, docs: seq<Doc>, k: PartitionKey)
    ensures DocsFor(Tag(key, docs), k) == if k == key then docs else []
    decreases |docs|
  {
    if |docs| > 0 {
      assert Tag(key, docs)[1..] == Tag(key, docs[1..]);
      DocsForTag(key, docs[1..], k);
      assert docs == [docs[0]] + docs[1..];
    }
  }

  /**
   * The store is append-only: every partition after the loop is the
   * partition before it followed by exactly the documents the loop inserted
   * there, in insertion order, whatever the loop's status.
   */
  lemma {:induction false} IngestAccounts(links: seq<string>, s: Store, fetch: Fetch, service: Service, k: PartitionKey)
    ensures Partition(IngestLinks(links, s, fetch, service).store, k)
      == Partition(s, k) + DocsFor(IngestLinks(links, s, fetch, service).inserted, k)
    decreases |links|
  {
    if |links| > 0 {
      match IngestLink(links[0], s, fetch, service)
      case Crashed =>
      case Unreachable =>
      case Skipped =>
        IngestAccounts(links[1..], s, fetch, service, k);
      case Ingested(s1, key, docs) =>
        var rest := IngestLinks(links[1..], s1, fetch, service);
        IngestAccounts(links[1..], s1, fetch, service, k);
        IngestedEffect(links[0], s, fetch, service, k);
        AppendAccount(Partition(s, k), Partition(s1, k), Partition(rest.store, k), key, docs, rest.inserted, k);
    }
  }

  /** One ingested page followed by the rest of the loop, on a single partition. */
  lemma AppendAccount(p0: seq<Doc>, p1: seq<Doc>, p2: seq<Doc>, key: PartitionKey, docs: seq<Doc>,
                      rest: seq<Inserted>, k: PartitionKey)
    requires p1 == p0 + (if k == key then docs else [])
    requires p2 == p1 + DocsFor(rest, k)
    ensures p2 == p0 + DocsFor(Tag(key, docs) + rest, k)
  {
    var mine := if k == key then docs else [];
    TaggedAccount(key, docs, rest, k);
    assert (p0 + mine) + DocsFor(rest, k) == p0 + (mine + DocsFor(rest, k));
  }

  lemma TaggedAccount(key: PartitionKey, docs: seq<Doc>, rest: seq<Inserted>, k: PartitionKey)
    ensures DocsFor(Tag(key, docs) + rest, k) == (if k == key then docs else []) + DocsFor(rest, k)
  {
    DocsForAppend(Tag(key, docs), rest, k);
    DocsForTag(key, docs, k);
  }

  /** A day present in the store before the loop is present after it. */
  lemma KeepsDays(links: seq<string>, s: Store, fetch: Fetch, service: Service, k: PartitionKey, day: string)
    requires HasDay(s, k, day)
    ensures HasDay(IngestLinks(links, s, fetch, service).store, k, day)
  {
    IngestAccounts(links, s, fetch, service, k);
    var i :| 0 <= i < |Partition(s, k)| && Partition(s, k)[i].day == day;
    assert Partition(IngestLinks(links, s, fetch, service).store, k)[i] == Partition(s, k)[i];
  }

  /** A day present before one link's step is present after it. */
  lemma LinkKeepsDays(url: string, s: Store, fetch: Fetch, service: Service, k: PartitionKey, day: string)
    requires HasDay(s, k, day)
    requires IngestLink(url, s, fetch, service).Ingested?
    ensures HasDay(IngestLink(url, s, fetch, service).store, k, day)
  {
    var r := IngestLink(url, s, fetch, service);
    IngestedEffect(url, s, fetch, service, k);
    var i :| 0 <= i < |Partition(s, k)| && Partition(s, k)[i].day == day;
    assert Partition(r.store, k)[i] == Partition(s, k)[i];
  }

  /**
   * Deduplication before fetching: a URL whose day is already stored in its
   * partition is never fetched, however often it is listed.
   */
  lemma {:induction false} StoredDayNotFetched(links: seq<string>, s: Store, fetch: Fetch, service: Service, url: string)
    requires SplitDayKey(url).Some?
    requires HasDay(s, KeyOf(SplitDayKey(url).value), SplitDayKey(url).value.day)
    ensures url !in IngestLinks(links, s, fetch, service).fetched
    decreases |links|
  {
    if |links| > 0 {
      var dk := SplitDayKey(url).value;
      var o := IngestLink(links[0], s, fetch, service);
      var s1 := StoreAfter(o, s);
      LinkStep(links, s, fetch, service);
      StoredNotLoaded(url, s, fetch, service);
      if o.Ingested? {
        LinkKeepsDays(links[0], s, fetch, service, KeyOf(dk), dk.day);
      }
      if o.Skipped? || o.Ingested? {
        StoredDayNotFetched(links[1..], s1, fetch, service, url);
      }
    }
  }

  /** A link whose day is stored is skipped, or raises, before any fetch. */
  lemma StoredNotLoaded(url: string, s: Store, fetch: Fetch, service: Service)
    requires SplitDayKey(url).Some?
    requires HasDay(s, KeyOf(SplitDayKey(url).value), SplitDayKey(url).value.day)
    ensures IngestLink(url, s, fetch, service).Skipped? || IngestLink(url, s, fetch, service).Crashed?
  {
    IngestLinkSpec(url, s, fetch, service);
  }

  /**
   * Every link is settled against `s`: its URL is filed, and either its day is
   * stored or its page fetches and holds no well-formed block.
   */
  ghost predicate Settled(links: seq<string>, s: Store, fetch: Fetch, service: Service) {
    forall i :: 0 <= i < |links| ==> SettledLink(links[i], s, fetch, service)
  }

  ghost predicate SettledLink(url: string, s: Store, fetch: Fetch, service: Service) {
    && Filed(url)
    && var dk := SplitDayKey(url).value;
      || HasDay(s, KeyOf(dk), dk.day)
      || (fetch(url).Some? && PageDocs(fetch(url).value, dk.day, service) == [])
  }

  /** The store a link leaves for the next one when the loop goes on. */
  function StoreAfter(o: LinkOutcome, s: Store): Store {
    if o.Ingested? then o.store else s
  }

  /** A run that finishes leaves every one of its links settled. */
  lemma {:induction false} FinishedSettles(links: seq<string>, s: Store, fetch: Fetch, service: Service)
    requires IngestLinks(links, s, fetch, service).status == Finished
    ensures Settled(links, IngestLinks(links, s, fetch, service).store, fetch, service)
    decreases |links|
  {
    if |links| > 0 {
      var s1 := StoreAfter(IngestLink(links[0], s, fetch, service), s);
      FinishedStep(links, s, fetch, service);
      FinishedSettles(links[1..], s1, fetch, service);
      HeadSettles(links[0], s, fetch, service, links[1..]);
      SettledCons(links, IngestLinks(links, s, fetch, service).store, fetch, service);
    }
  }

  /** A finished loop went past its first link and finished on the rest. */
  lemma FinishedStep(links: seq<string>, s: Store, fetch: Fetch, service: Service)
    requires |links| > 0
    requires IngestLinks(links, s, fetch, service).status == Finished
    ensures var o := IngestLink(links[0], s, fetch, service);
      var rest := IngestLinks(links[1..], StoreAfter(o, s), fetch, service);
      && (o.Skipped? || o.Ingested?)
      && rest.status == Finished
      && IngestLinks(links, s, fetch, service).store == rest.store
  {
    LinkStep(links, s, fetch, service);
  }

  lemma SettledCons(links: seq<string>, st: Store, fetch: Fetch, service: Service)
    requires |links| > 0
    requires SettledLink(links[0], st, fetch, service)
    requires Settled(links[1..], st, fetch, service)
    ensures Settled(links, st, fetch, service)
  {
    forall i | 0 <= i < |links|
      ensures SettledLink(links[i], st, fetch, service)
    {
      if i > 0 {
        assert links[i] == links[1..][i - 1];
      }
    }
  }

  /** A link the loop goes past stays settled whatever the later links do. */
  lemma HeadSettles(url: string, s: Store, fetch: Fetch, service: Service, later: seq<string>)
    requires IngestLink(url, s, fetch, service).Skipped? || IngestLink(url, s, fetch, service).Ingested?
    ensures var s1 := StoreAfter(IngestLink(url, s, fetch, service), s);
      SettledLink(url, IngestLinks(later, s1, fetch, service).store, fetch, service)
  {
    IngestLinkSpec(url, s, fetch, service);
    var dk := SplitDayKey(url).value;
    var o := IngestLink(url, s, fetch, service);
    var s1 := StoreAfter(o, s);
    if o.Skipped? {
      KeepsDays(later, s, fetch, service, KeyOf(dk), dk.day);
    } else if o.docs != [] {
      assert o.docs[0].day == dk.day;
      assert Partition(s1, o.key)[|Partition(s, o.key)|] == o.docs[0];
      assert HasDay(s1, KeyOf(dk), dk.day);
      KeepsDays(later, s1, fetch, service, KeyOf(dk), dk.day);
    }
  }

  /** Over settled links the loop inserts nothing, fetches no failing page and finishes. */
  lemma {:induction false} SettledIsQuiet(links: seq<string>, s: Store, fetch: Fetch, service: Service)
    requires Settled(links, s, fetch, service)
    ensures IngestLinks(links, s, fetch, service).store == s
    ensures IngestLinks(links, s, fetch, service).inserted == []
    ensures IngestLinks(links, s, fetch, service).status == Finished
    decreases |links|
  {
    if |links| > 0 {
      var o := IngestLink(links[0], s, fetch, service);
      LinkStep(links, s, fetch, service);
      SettledLinkIsQuiet(links[0], s, fetch, service);
      SettledTail(links, s, fetch, service);
      SettledIsQuiet(links[1..], s, fetch, service);
      if o.Ingested? {
        assert Tag(o.key, o.docs) == [];
      }
    }
  }

  lemma SettledTail(links: seq<string>, s: Store, fetch: Fetch, service: Service)
    requires |links| > 0 && Settled(links, s, fetch, service)
    ensures Settled(links[1..], s, fetch, service)
  {
    assert forall i :: 1 <= i < |links| ==> links[i] == links[1..][i - 1];
  }

  /** A settled link is skipped, or its page adds nothing. */
  lemma SettledLinkIsQuiet(url: string, s: Store, fetch: Fetch, service: Service)
    requires SettledLink(url, s, fetch, service)
    ensures var o := IngestLink(url, s, fetch, service);
      o.Skipped? || (o.Ingested? && o.docs == [] && o.store == s)
  {
    IngestLinkSpec(url, s, fetch, service);
  }

  /**
   * Idempotent ingestion: run the loop again, against the same pages, on
   * the store a finished run left, and nothing more is inserted.
   */
  lemma Idempotent(links: seq<string>, s: Store, fetch: Fetch, service: Service)
    requires IngestLinks(links, s, fetch, service).status == Finished
    ensures var first := IngestLinks(links, s, fetch, service);
      var second := IngestLinks(links, first.store, fetch, service);
      && second.inserted == []
      && second.store == first.store
      && second.status == Finished
  {
    FinishedSettles(links, s, fetch, service);
    SettledIsQuiet(links, IngestLinks(links, s, fetch, service).store, fetch, service);
  }

  /**
   * What `scrape_questions_to_mongodb` leaves behind: the store, the log of
   * insertions it made, the day pages it fetched, and its return value,
   * `None` when an exception escapes it.
   */
  datatype Scrape = Scrape(store: Store, inserted: seq<Inserted>, fetched: seq<string>, result: Option<seq<Doc>>)

  /**
   * The whole scrape for the month `month` (the value `get_current_month`
   * reads from the clock). `index` is the `href`s of the index page's anchors, or `None`
   * when the index request fails; `join` resolves an `href` against the site
   * root. Whatever the outcome, the store has grown by exactly the logged
   * insertions; a non-empty return value is exactly those documents in order.
   */
  function ScrapeQuestions(month: int, index: Option<seq<Option<string>>>, join: string -> string,
                           fetch: Fetch, service: Service, s: Store): (r: Scrape)
    requires 1 <= month <= 12
    ensures index.None? ==> r == Scrape(s, [], [], Some([]))
    ensures index.Some? && DiscoverLinks(index.value, month, join).None? ==> r == Scrape(s, [], [], None)
    ensures index.Some? && DiscoverLinks(index.value, month, join).Some? ==>
      var ing := IngestLinks(DiscoverLinks(index.value, month, join).value, s, fetch, service);
      && r.store == ing.store && r.inserted == ing.inserted && r.fetched == ing.fetched
      && (ing.status == Finished ==> r.result == Some(Docs(ing.inserted)))
      && (ing.status == FetchFailed ==> r.result == Some([]))
      && (ing.status == Raised ==> r.result == None)
    ensures forall k :: Partition(r.store, k) == Partition(s, k) + DocsFor(r.inserted, k)
    ensures r.result.Some? && r.result.value != [] ==> r.result.value == Docs(r.inserted)
  {
    match index
    case None => Scrape(s, [], [], Some([]))
    case Some(hrefs) =>
      match DiscoverLinks(hrefs, month, join)
      case None => Scrape(s, [], [], None)
      case Some(links) =>
        var ing := IngestLinks(links, s, fetch, service);
        IngestAccountsAll(links, s, fetch, service);
        var result :=
          match ing.status
          case Finished => Some(Docs(ing.inserted))
          case FetchFailed => Some([])
          case Raised => None;
        Scrape(ing.store, ing.inserted, ing.fetched, result)
  }

  lemma IngestAccountsAll(links: seq<string>, s: Store, fetch: Fetch, service: Service)
    ensures var r := IngestLinks(links, s, fetch, service);
      forall k :: Partition(r.store, k) == Partition(s, k) + DocsFor(r.inserted, k)
  {
    forall k {
      IngestAccounts(links, s, fetch, service, k);
    }
  }

  /** One run of `main`: the scrape, then the publish loop over what it returned. */
  datatype Run = Run(store: Store, inserted: seq<Inserted>, fetched: seq<string>, actions: seq<P.Action>, raised: bool)

  /**
   * `main`: publishing happens only when the scrape returned a non-empty
   * list, one pause per returned document; an escaping exception publishes
   * nothing.
   */
  function RunOnce(month: int, index: Option<seq<Option<string>>>, join: string -> string,
                   fetch: Fetch, service: Service, accepts: P.Poll -> bool, s: Store): (r: Run)
    requires 1 <= month <= 12
    ensures r.raised ==> r.actions == []
    ensures !r.raised && r.actions != [] ==> P.Sleeps(r.actions) == |r.inserted|
    ensures r.actions != [] ==> r.inserted != []
    ensures forall k :: Partition(r.store, k) == Partition(s, k) + DocsFor(r.inserted, k)
  {
    var sc := ScrapeQuestions(month, index, join, fetch, service, s);
    match sc.result
    case None => Run(sc.store, sc.inserted, sc.fetched, [], true)
    case Some(questions) =>
      var actions := if |questions| > 0 then P.PublishAll(questions, accepts) else [];
      Run(sc.store, sc.inserted, sc.fetched, actions, false)
  }

  /**
   * A day-page fetch failure loses the run's output: nothing is published,
   * yet every document inserted before the failure stays in the store and a
   * later run will skip its day, so it is never published at all.
   */
  lemma FetchFailureNotPublished(month: int, hrefs: seq<Option<string>>, join: string -> string,
                                 fetch: Fetch, service: Service, accepts: P.Poll -> bool, s: Store)
    requires 1 <= month <= 12
    requires DiscoverLinks(hrefs, month, join).Some?
    requires IngestLinks(DiscoverLinks(hrefs, month, join).value, s, fetch, service).status == FetchFailed
    ensures var r := RunOnce(month, Some(hrefs), join, fetch, service, accepts, s);
      && r.actions == []
      && !r.raised
      && r.inserted == IngestLinks(DiscoverLinks(hrefs, month, join).value, s, fetch, service).inserted
  {
  }

  /** When the scrape finishes, the polls sent are those of the inserted documents whose marker resolves, in order. */
  lemma FinishedPublishesInserted(month: int, hrefs: seq<Option<string>>, join: string -> string,
                                  fetch: Fetch, service: Service, accepts: P.Poll -> bool, s: Store)
    requires 1 <= month <= 12
    requires DiscoverLinks(hrefs, month, join).Some?
    requires IngestLinks(DiscoverLinks(hrefs, month, join).value, s, fetch, service).status == Finished
    ensures var r := RunOnce(month, Some(hrefs), join, fetch, service, accepts, s);
      var sent := P.Resolvable(Docs(r.inserted));
      && |P.Polls(r.actions)| == |sent|
      && (forall i :: 0 <= i < |sent| ==> Some(P.Polls(r.actions)[i]) == P.BuildPoll(sent[i]))
      && P.Sleeps(r.actions) == |r.inserted|
  {
    var r := RunOnce(month, Some(hrefs), join, fetch, service, accepts, s);
    P.PublishSendsResolvable(Docs(r.inserted), accepts);
  }

  /**
   * The two answer rules agree where the publish-time rule resolves a marker
   * to one of the first four options.
   */
  lemma ResolvedIndexAgrees(marker: string, n: nat)
    requires P.ResolveLetter(marker, n).Some? && P.ResolveLetter(marker, n).value < 4
    ensures ScrapeIndex(marker) == P.ResolveLetter(marker, n).value
  {
    var id := P.ResolveLetter(marker, n).value;
    assert Upper(marker)[0] == UpperChar(marker[0]) == marker[0];
    assert Upper(marker) == [ScrapeLetters[id]];
  }

  /**
   * Where they disagree: a lower-case marker is stored with its letter's
   * index but never resolved at publish time (with at most 32 options), and
   * an empty marker is stored with index 0 but never published.
   */
  lemma AnswerRulesDisagree(n: nat)
    requires n <= 32
    ensures ScrapeIndex("b") == 1 && P.ResolveLetter("b", n) == None
    ensures ScrapeIndex("") == 0 && P.ResolveLetter("", n) == None
  {
    assert Upper("b") == "B";
  }

  /**
   * The stored index is not bounded by the option count: a "D" marker on a
   * three-option block is stored as 3.
   */
  lemma StoredIndexOutOfRange(raw: RawQuestion, day: string, service: Service)
    requires raw.valueInBraces == "D" && |raw.options| == 3
    ensures BuildDoc(raw, day, service).correctOptionId == |BuildDoc(raw, day, service).options|
    ensures P.BuildPoll(BuildDoc(raw, day, service)) == None
  {
    assert Upper("D") == "D";
  }

  /**
   * A page of two blocks, the first with four options and marker `…{B}…`,
   * the second without an options container: one document, stored with
   * index 1, and publishing it sends one poll with answer 1, then pauses.
   */
  lemma TwoBlockPage(q1: string, rows: seq<Option<string>>, pre: string, post: string, e1: string,
                     q2: string, e2: string, day: string, service: Service, accepts: P.Poll -> bool)
    requires |rows| == 4 && forall i :: 0 <= i < 4 ==> rows[i].Some?
    requires '{' !in pre && '}' !in post
    ensures var blocks := [
        Block(Some(q1), Some(rows), Some(HiddenInput(Some(pre + "{B}" + post))), Some(e1)),
        Block(Some(q2), None, None, Some(e2))];
      var docs := PageDocs(blocks, day, service);
      var actions := P.PublishAll(docs, accepts);
      && |docs| == 1
      && docs[0].correctOptionId == 1
      && |actions| == 2
      && actions[0].Send? && actions[0].poll.correctOptionId == 1
      && actions[1] == P.Sleep(P.PauseSeconds)
  {
    var b1 := Block(Some(q1), Some(rows), Some(HiddenInput(Some(pre + "{B}" + post))), Some(e1));
    var b2 := Block(Some(q2), None, None, Some(e2));
    MarkerBBlock(b1, pre, post, day, service);
    var d := OneDocPage(b1, b2, day, service);
    PublishOneResolvable(d, accepts);
  }

  /** A well-formed block with four options and marker `…{B}…` is stored with index 1. */
  lemma MarkerBBlock(b: Block, pre: string, post: string, day: string, service: Service)
    requires b.questionText.Some? && b.explanation.Some?
    requires b.optionRows.Some? && |b.optionRows.value| == 4
    requires forall i :: 0 <= i < 4 ==> b.optionRows.value[i].Some?
    requires b.hidden == Some(HiddenInput(Some(pre + "{B}" + post)))
    requires '{' !in pre && '}' !in post
    ensures WellFormed(b)
    ensures var d := BuildDoc(ParseBlock(b).value, day, service);
      d.valueInBraces == "B" && d.correctOptionId == 1 && |d.options| == 4
  {
    assert pre + "{B}" + post == pre + "{" + "B" + "}" + post;
    MarkerBetweenBraces(pre, "B", post);
    assert Upper("B") == "B";
  }

  /** A page whose second block lacks options yields the first block's document only. */
  lemma OneDocPage(b1: Block, b2: Block, day: string, service: Service) returns (d: Doc)
    requires WellFormed(b1) && b2.optionRows.None?
    ensures PageDocs([b1, b2], day, service) == [d]
    ensures d == BuildDoc(ParseBlock(b1).value, day, service)
  {
    assert ParseBlock(b2) == None;
    var blocks := [b1, b2];
    assert blocks[1..] == [b2];
    assert [b2][1..] == [];
    assert PageDocs([b2], day, service) == [];
    d := BuildDoc(ParseBlock(b1).value, day, service);
  }

  /** One document whose marker is "B" and that has four options: one send, one pause. */
  lemma PublishOneResolvable(d: Doc, accepts: P.Poll -> bool)
    requires d.valueInBraces == "B" && |d.options| == 4
    ensures var actions := P.PublishAll([d], accepts);
      && |actions| == 2
      && actions[0].Send? && actions[0].poll.correctOptionId == 1
      && actions[1] == P.Sleep(P.PauseSeconds)
  {
    assert P.ResolveLetter("B", 4) == Some(1);
    var p := P.BuildPoll(d).value;
    assert [d][1..] == [];
    assert P.PublishAll([d], accepts) == [P.Send(p, accepts(p)), P.Sleep(P.PauseSeconds)];
  }
}

=== FILE: publisher.dfy ===
/**
 * The publishing side (`TelegramQuizBot` and the send loop): a stored
 * document becomes a quiz poll with length-bounded fields, or is skipped
 * when its marker does not name an option. The Telegram API and the sleeps
 * are recorded as a trace of actions.
 */
module Publisher {
  import opened Wrappers
  import opened Strings
  import opened Store

  const QuestionLimit: int := 300
  const OptionLimit: int := 100
  const ExplanationLimit: int := 200
  /** Seconds slept after every document, sent or skipped. */
  const PauseSeconds: nat := 3
  const Ellipsis: string := "..."

  /**
   * `truncate_text`: a text longer than the limit keeps its first
   * `maxLength - 3` characters followed by "..."; a shorter one is kept.
   */
  function Truncate(text: string, maxLength: int): (r: string)
    ensures |text| <= maxLength ==> r == text
    ensures maxLength >= 3 && |text| > maxLength ==> r == text[..maxLength - 3] + Ellipsis && |r| == maxLength
    ensures maxLength >= 3 ==> |r| <= maxLength
  {
    if |text| > maxLength then Prefix(text, maxLength - 3) + Ellipsis else text
  }

  /** Truncating twice with the same limit is truncating once. */
  lemma TruncateIdempotent(text: string, maxLength: int)
    requires maxLength >= 3
    ensures Truncate(Truncate(text, maxLength), maxLength) == Truncate(text, maxLength)
  {
  }

  /**
   * Below three the length bound fails: Python's negative slice bound keeps
   * all but the last characters and the ellipsis is appended anyway.
   */
  lemma TruncateBelowThree()
    ensures Truncate("abc", 2) == "ab..."
  {
    assert Prefix("abc", -1) == "ab";
  }

  /** Each option truncated on its own; the number of options is unchanged. */
  function TruncateAll(texts: seq<string>, maxLength: int): (r: seq<string>)
    ensures |r| == |texts|
    ensures forall i :: 0 <= i < |texts| ==> r[i] == Truncate(texts[i], maxLength)
  {
    seq(|texts|, i requires 0 <= i < |texts| => Truncate(texts[i], maxLength))
  }

  /** Code point of the label of option 0, `chr(65)`. */
  const FirstLetter: int := 65
  /** Largest argument `chr` accepts. */
  const MaxCodePoint: int := 0x10FFFF

  predicate IsCharCode(n: int) {
    0 <= n < 0xD800 || 0xE000 <= n <= MaxCodePoint
  }

  /**
   * The label dictionary of `send_poll` for `n` options: the one-character
   * string of code point 65 + i maps to i, for every i below n. Code
   * points in the surrogate range cannot occur in a Dafny string, so no
   * lookup could reach them and they are left out.
   */
  function LetterMap(n: nat): map<string, nat>
    requires n <= MaxCodePoint - FirstLetter + 1
  {
    if n == 0 then map[]
    else
      var code := FirstLetter + n - 1;
      if IsCharCode(code) then LetterMap(n - 1)[[code as char] := n - 1] else LetterMap(n - 1)
  }

  /** `option_mapping.get(letter)` for `n` options: the position of a one-letter label. */
  function ResolveLetter(letter: string, n: nat): (r: Option<nat>)
    ensures r.Some? ==> r.value < n && |letter| == 1 && letter[0] as int == FirstLetter + r.value
    ensures r.None? ==> |letter| != 1 || !(FirstLetter <= letter[0] as int < FirstLetter + n)
  {
    if |letter| == 1 && FirstLetter <= letter[0] as int < FirstLetter + n then Some(letter[0] as int - FirstLetter)
    else None
  }

  /** The dictionary the code builds and the arithmetic rule agree on every key. */
  lemma {:induction false} LetterMapLookup(n: nat, letter: string)
    requires n <= MaxCodePoint - FirstLetter + 1
    ensures Get(LetterMap(n), letter) == ResolveLetter(letter, n)
    decreases n
  {
    if n > 0 {
      var code := FirstLetter + n - 1;
      LetterMapLookup(n - 1, letter);
      if IsCharCode(code) && letter == [code as char] {
        assert letter[0] as int == code;
      } else if |letter| == 1 {
        assert letter == [letter[0]];
        assert letter[0] as int != code;
      }
    }
  }

  /** The label `chr(65+i)` of option `i` resolves to `i`. */
  lemma LabelResolves(i: nat, n: nat)
    requires i < n && IsCharCode(FirstLetter + i)
    ensures ResolveLetter([(FirstLetter + i) as char], n) == Some(i)
  {
  }

  /**
   * A lower-case letter resolves to nothing while there are at most 32
   * options (the lower-case letters start 32 code points after `A`).
   */
  lemma LowercaseUnresolved(letter: string, n: nat)
    requires |letter| == 1 && 'a' <= letter[0] <= 'z' && n <= 32
    ensures ResolveLetter(letter, n) == None
  {
  }

  /** The quiz poll handed to `bot.send_poll`. */
  datatype Poll = Poll(
    question: string,
    options: seq<string>,
    isAnonymous: bool,
    isQuiz: bool,
    correctOptionId: nat,
    explanation: string)

  /**
   * The payload `send_poll` builds for a document, or `None` when the
   * marker names no option and the document is skipped.
   */
  function BuildPoll(doc: Doc): (r: Option<Poll>)
    ensures r.Some? <==> ResolveLetter(doc.valueInBraces, |doc.options|).Some?
    ensures r.Some? ==>
      && r.value.question == Truncate(doc.question, QuestionLimit)
      && r.value.options == TruncateAll(doc.options, OptionLimit)
      && r.value.explanation == Truncate(doc.explanation, ExplanationLimit)
      && r.value.correctOptionId == ResolveLetter(doc.valueInBraces, |doc.options|).value
    ensures r.Some? ==>
      && |r.value.question| <= QuestionLimit
      && |r.value.options| == |doc.options|
      && (forall i :: 0 <= i < |r.value.options| ==> |r.value.options[i]| <= OptionLimit)
      && |r.value.explanation| <= ExplanationLimit
      && r.value.correctOptionId < |r.value.options|
      && |doc.valueInBraces| == 1
      && doc.valueInBraces[0] as int == FirstLetter + r.value.correctOptionId
      && r.value.isAnonymous && r.value.isQuiz
  {
    var options := TruncateAll(doc.options, OptionLimit);
    match ResolveLetter(doc.valueInBraces, |options|)
    case None => None
    case Some(id) =>
      Some(Poll(Truncate(doc.question, QuestionLimit), options, true, true, id,
                Truncate(doc.explanation, ExplanationLimit)))
  }

  /** What the publish loop does: a send (and whether Telegram took it), or a sleep. */
  datatype Action = Send(poll: Poll, accepted: bool) | Sleep(seconds: nat)

  function Sleeps(trace: seq<Action>): nat {
    if |trace| == 0 then 0 else (if trace[0].Sleep? then 1 else 0) + Sleeps(trace[1..])
  }

  /** The polls sent, in order. */
  function Polls(trace: seq<Action>): seq<Poll> {
    if |trace| == 0 then [] else (if trace[0].Send? then [trace[0].poll] else []) + Polls(trace[1..])
  }

  lemma {:induction false} TraceAppend(a: seq<Action>, b: seq<Action>)
    ensures Sleeps(a + b) == Sleeps(a) + Sleeps(b)
    ensures Polls(a + b) == Polls(a) + Polls(b)
    decreases |a|
  {
    if |a| == 0 {
      assert a + b == b;
    } else {
      assert (a + b)[1..] == a[1..] + b;
      TraceAppend(a[1..], b);
    }
  }

  /** Every pause lasts `PauseSeconds`, and every send is followed at once by a pause. */
  ghost predicate Paced(trace: seq<Action>) {
    && (forall i :: 0 <= i < |trace| && trace[i].Sleep? ==> trace[i] == Sleep(PauseSeconds))
    && (forall i :: 0 <= i < |trace| && trace[i].Send? ==> i + 1 < |trace| && trace[i + 1] == Sleep(PauseSeconds))
  }

  lemma PacedAppend(a: seq<Action>, b: seq<Action>)
    requires Paced(a) && Paced(b)
    ensures Paced(a + b)
  {
    var ab := a + b;
    forall i | 0 <= i < |ab| && ab[i].Send?
      ensures i + 1 < |ab| && ab[i + 1] == Sleep(PauseSeconds)
    {
      if i < |a| {
        assert a[i].Send?;
        assert ab[i + 1] == a[i + 1];
      } else {
        assert b[i - |a|].Send?;
        assert ab[i + 1] == b[i - |a| + 1];
      }
    }
  }

  /** The actions for one document: at most one send, then one pause. */
  function PublishOne(doc: Doc, accepts: Poll -> bool): seq<Action> {
    match BuildPoll(doc)
    case None => [Sleep(PauseSeconds)]
    case Some(p) => [Send(p, accepts(p)), Sleep(PauseSeconds)]
  }

  /** One document: its poll if the marker resolves, and exactly one pause, last. */
  lemma PublishOneShape(doc: Doc, accepts: Poll -> bool)
    ensures var head := PublishOne(doc, accepts);
      && Sleeps(head) == 1
      && Polls(head) == (if BuildPoll(doc).Some? then [BuildPoll(doc).value] else [])
      && head[|head| - 1] == Sleep(PauseSeconds)
      && Paced(head)
  {
    var head := PublishOne(doc, accepts);
    if BuildPoll(doc).Some? {
      var p := BuildPoll(doc).value;
      assert head == [Send(p, accepts(p)), Sleep(PauseSeconds)];
      assert head[1..] == [Sleep(PauseSeconds)];
      assert head[1..][1..] == [];
      assert Sleeps(head[1..]) == 1;
      assert Polls(head[1..]) == [];
    } else {
      assert head == [Sleep(PauseSeconds)];
      assert head[1..] == [];
    }
  }

  /**
   * `send_new_questions_to_telegram`: every document in turn, each followed
   * by a pause whether it was sent, skipped or refused; a refused send does
   * not stop the loop.
   */
  function PublishAll(docs: seq<Doc>, accepts: Poll -> bool): (r: seq<Action>)
    ensures Sleeps(r) == |docs|
    ensures |Polls(r)| <= |docs|
    ensures Paced(r)
    ensures |docs| > 0 ==> r[|r| - 1] == Sleep(PauseSeconds)
    ensures |docs| == 0 ==> r == []
    decreases |docs|
  {
    if |docs| == 0 then []
    else
      var head := PublishOne(docs[0], accepts);
      var rest := PublishAll(docs[1..], accepts);
      PublishOneShape(docs[0], accepts);
      TraceAppend(head, rest);
      PacedAppend(head, rest);
      head + rest
  }

  /** The loop treats documents independently: publishing a concatenation concatenates. */
  lemma {:induction false} PublishAppend(a: seq<Doc>, b: seq<Doc>, accepts: Poll -> bool)
    ensures PublishAll(a + b, accepts) == PublishAll(a, accepts) + PublishAll(b, accepts)
    decreases |a|
  {
    if |a| == 0 {
      assert a + b == b;
    } else {
      assert (a + b)[1..] == a[1..] + b;
      assert (a + b)[0] == a[0];
      PublishAppend(a[1..], b, accepts);
    }
  }

  /** Documents whose marker resolves, i.e. those a poll is sent for. */
  function Resolvable(docs: seq<Doc>): seq<Doc> {
    if |docs| == 0 then []
    else (if BuildPoll(docs[0]).Some? then [docs[0]] else []) + Resolvable(docs[1..])
  }

  /**
   * Exactly the resolvable documents are sent, in order, whatever Telegram
   * answers: a refused delivery changes nothing but its own status.
   */
  lemma {:induction false} PublishSendsResolvable(docs: seq<Doc>, accepts: Poll -> bool)
    ensures |Polls(PublishAll(docs, accepts))| == |Resolvable(docs)|
    ensures forall i :: 0 <= i < |Resolvable(docs)| ==>
      Some(Polls(PublishAll(docs, accepts))[i]) == BuildPoll(Resolvable(docs)[i])
    decreases |docs|
  {
    PublishedPolls(docs, accepts);
    PollsOfResolvable(docs);
  }

  /** The polls of the documents whose marker resolves, in order. */
  function PollsOf(docs: seq<Doc>): seq<Poll> {
    if |docs| == 0 then []
    else (if BuildPoll(docs[0]).Some? then [BuildPoll(docs[0]).value] else []) + PollsOf(docs[1..])
  }

  lemma {:induction false} PublishedPolls(docs: seq<Doc>, accepts: Poll -> bool)
    ensures Polls(PublishAll(docs, accepts)) == PollsOf(docs)
    decreases |docs|
  {
    if |docs| > 0 {
      var head := PublishOne(docs[0], accepts);
      var rest := PublishAll(docs[1..], accepts);
      PublishedPolls(docs[1..], accepts);
      TraceAppend(head, rest);
      PublishOneShape(docs[0], accepts);
    }
  }

  lemma {:induction false} PollsOfResolvable(docs: seq<Doc>)
    ensures |PollsOf(docs)| == |Resolvable(docs)|
    ensures forall i :: 0 <= i < |Resolvable(docs)| ==> Some(PollsOf(docs)[i]) == BuildPoll(Resolvable(docs)[i])
    decreases |docs|
  {
    if |docs| > 0 {
      PollsOfResolvable(docs[1..]);
    }
  }
}

=== FILE: store.dfy ===
/**
 * The document store (`MongoDBManager`): one collection per year/month
 * pair, each an append-only sequence of question documents.
 */
module Store {
  import opened Wrappers
  import opened Strings

  /** A question document as the scraper inserts it. */
  datatype Doc = Doc(
    question: string,
    options: seq<string>,
    valueInBraces: string,
    explanation: string,
    correctOptionId: nat,
    day: string)

  /** A collection is identified by its full name. */
  type PartitionKey = string

  /**
   * The full name of the collection reached from the database by the year
   * and then by the month: the two names joined by a dot.
   */
  function CollectionName(year: string, month: string): (r: PartitionKey)
    ensures |r| == |year| + 1 + |month|
    ensures r[..|year|] == year && r[|year|] == '.' && r[|year| + 1..] == month
  {
    year + "." + month
  }

  /** Two months of the same year are different collections. */
  lemma DistinctMonths(year: string, m1: string, m2: string)
    requires m1 != m2
    ensures CollectionName(year, m1) != CollectionName(year, m2)
  {
    var a, b := CollectionName(year, m1), CollectionName(year, m2);
    assert a[|year| + 1..] == m1 && b[|year| + 1..] == m2;
  }

  /**
   * For years without a dot the name determines the pair: the first dot
   * of the name ends the year.
   */
  lemma CollectionNameInjective(y1: string, m1: string, y2: string, m2: string)
    requires '.' !in y1 && '.' !in y2
    ensures CollectionName(y1, m1) == CollectionName(y2, m2) <==> y1 == y2 && m1 == m2
  {
    var a, b := CollectionName(y1, m1), CollectionName(y2, m2);
    assert a[..|y1|] == y1 && b[..|y2|] == y2;
    FirstIndexUnique(a, '.', |y1|);
    FirstIndexUnique(b, '.', |y2|);
    if a == b {
      assert m1 == a[|y1| + 1..] && m2 == b[|y2| + 1..];
    }
  }

  /** Names are not unique: a dot can move between the year and the month part. */
  lemma NamesCollide()
    ensures CollectionName("a.b", "c") == CollectionName("a", "b.c")
  {
  }

  /**
   * The driver's check on a collection name, made whenever a collection
   * handle is created: the name is not empty, holds no two dots in a row,
   * holds a `$` only after one of the reserved prefixes "oplog.$main" and
   * "$cmd", neither starts nor ends with a dot, and holds no NUL character.
   * A name that fails raises `InvalidName`.
   */
  predicate ValidName(name: string) {
    && |name| > 0
    && !Contains(name, "..")
    && ('$' in name ==> "oplog.$main" <= name || "$cmd" <= name)
    && name[0] != '.' && name[|name| - 1] != '.'
    && '\0' !in name
  }

  /** A year or month segment the driver always accepts: non-empty, without dots, `$` or NUL. */
  predicate PlainSegment(s: string) {
    |s| > 0 && '.' !in s && '$' !in s && '\0' !in s
  }

  /**
   * `get_or_create_collection`: the handle for the year is created first,
   * then the one for the month inside it; `None` when either name is
   * rejected. An empty segment is always rejected and plain segments are
   * always accepted, under the name `year.month`.
   */
  function Collection(year: string, month: string): (r: Option<PartitionKey>)
    ensures r.Some? <==> ValidName(year) && ValidName(CollectionName(year, month))
    ensures r.Some? ==> r.value == CollectionName(year, month)
    ensures year == [] || month == [] ==> r.None?
    ensures PlainSegment(year) && PlainSegment(month) ==> r == Some(year + "." + month)
  {
    var ok := ValidName(year) && ValidName(CollectionName(year, month));
    assert year == [] || month == [] ==> !ok by {
      if year == [] || month == [] {
        EmptySegmentInvalid(year, month);
      }
    }
    assert PlainSegment(year) && PlainSegment(month) ==> ok by {
      if PlainSegment(year) && PlainSegment(month) {
        PlainSegmentsValid(year, month);
      }
    }
    if ok then Some(CollectionName(year, month)) else None
  }

  /** An empty year or month fails the driver's check: the name is empty or ends in a dot. */
  lemma EmptySegmentInvalid(year: string, month: string)
    requires year == [] || month == []
    ensures !(ValidName(year) && ValidName(CollectionName(year, month)))
  {
    var name := CollectionName(year, month);
    if month == [] {
      assert name[|name| - 1] == '.';
    }
  }

  /** Plain segments pass the driver's check, both alone and joined by a dot. */
  lemma PlainSegmentsValid(year: string, month: string)
    requires PlainSegment(year) && PlainSegment(month)
    ensures ValidName(year) && ValidName(CollectionName(year, month))
  {
    var name := CollectionName(year, month);
    forall i | 0 <= i < |year| - 1
      ensures !(year[i] == '.' && year[i + 1] == '.')
    {
      assert year[i] in year;
    }
    NoDoubleDot(year);
    forall i | 0 <= i < |name| - 1
      ensures !(name[i] == '.' && name[i + 1] == '.')
    {
      if i < |year| {
        assert name[i] == year[i] && year[i] in year;
      } else {
        assert name[i + 1] == month[i - |year|] && month[i - |year|] in month;
      }
    }
    NoDoubleDot(name);
    assert name[0] == year[0] && year[0] in year;
    assert name[|name| - 1] == month[|month| - 1] && month[|month| - 1] in month;
    assert '$' !in name && '\0' !in name;
  }

  /** A string in which no dot follows a dot holds no ".." . */
  lemma NoDoubleDot(s: string)
    requires forall i :: 0 <= i < |s| - 1 ==> !(s[i] == '.' && s[i + 1] == '.')
    ensures !Contains(s, "..")
  {
    forall i: nat
      ensures !OccursAt(s, "..", i)
    {
      if i + 2 <= |s| {
        assert s[i..i + 2][0] == s[i] && s[i..i + 2][1] == s[i + 1];
      }
    }
  }

  /** A collection that was never written to is absent from the map. */
  type Store = map<PartitionKey, seq<Doc>>

  /** `get_or_create_collection`: an unwritten collection reads as empty. */
  function Partition(s: Store, k: PartitionKey): seq<Doc> {
    if k in s then s[k] else []
  }

  /** Some document of partition `k` carries day key `day`. */
  ghost predicate HasDay(s: Store, k: PartitionKey, day: string) {
    exists i :: 0 <= i < |Partition(s, k)| && Partition(s, k)[i].day == day
  }

  /** The first document of `docs` whose day is `day`. */
  function FindIn(docs: seq<Doc>, day: string): (r: Option<Doc>)
    ensures r.Some? <==> exists i :: 0 <= i < |docs| && docs[i].day == day
    ensures r.Some? ==> r.value in docs && r.value.day == day
    decreases |docs|
  {
    if |docs| == 0 then None
    else if docs[0].day == day then Some(docs[0])
    else
      var r := FindIn(docs[1..], day);
      assert forall i :: 1 <= i < |docs| ==> docs[i] == docs[1..][i - 1];
      r
  }

  /** The lookup by day key in one collection: the first document filed under that day. */
  function FindByDay(s: Store, k: PartitionKey, day: string): (r: Option<Doc>)
    ensures r.Some? <==> HasDay(s, k, day)
    ensures r.Some? ==> r.value in Partition(s, k) && r.value.day == day
  {
    FindIn(Partition(s, k), day)
  }

  /** `insert_question`: append to partition `k`, creating it when absent. */
  function Insert(s: Store, k: PartitionKey, d: Doc): (r: Store)
    ensures Partition(r, k) == Partition(s, k) + [d]
    ensures forall k' :: k' != k ==> Partition(r, k') == Partition(s, k')
    ensures r.Keys == s.Keys + {k}
  {
    s[k := Partition(s, k) + [d]]
  }

  /** Partition isolation: a document inserted under one key is invisible under another. */
  lemma InsertIsolated(s: Store, k: PartitionKey, d: Doc, other: PartitionKey, day: string)
    requires other != k
    ensures FindByDay(Insert(s, k, d), other, day) == FindByDay(s, other, day)
  {
  }

  /** Inserting never removes a day: once present, a day stays present. */
  lemma InsertKeepsDays(s: Store, k: PartitionKey, d: Doc, k': PartitionKey, day: string)
    requires HasDay(s, k', day)
    ensures HasDay(Insert(s, k, d), k', day)
  {
    var i :| 0 <= i < |Partition(s, k')| && Partition(s, k')[i].day == day;
    assert Partition(Insert(s, k, d), k')[i] == Partition(s, k')[i];
  }
}

=== FILE: strings.dfy ===
/**
 * The Python string operations the scraper and the publisher rely on,
 * stated over `seq<char>`: slicing, substring test, `split`, `rsplit`,
 * `rstrip` and ASCII upper-casing.
 */
module Strings {
  import opened Wrappers

  /** Python's `s[:k]`: a negative bound counts from the end, both ends are clamped. */
  function Prefix(s: string, k: int): (r: string)
    ensures r <= s
    ensures 0 <= k <= |s| ==> |r| == k
    ensures k >= |s| ==> r == s
    ensures k < 0 ==> |r| == (if |s| + k > 0 then |s| + k else 0)
  {
    if k >= 0 then (if k <= |s| then s[..k] else s)
    else if |s| + k > 0 then s[..|s| + k] else []
  }

  /** `pat` occurs in `s` starting at position `i`. */
  ghost predicate OccursAt(s: string, pat: string, i: nat) {
    i + |pat| <= |s| && s[i..i + |pat|] == pat
  }

  /** Python's `pat in s` on strings: a left-to-right search for the pattern. */
  function Contains(s: string, pat: string): (b: bool)
    ensures b <==> exists i: nat :: OccursAt(s, pat, i)
    decreases |s|
  {
    if pat <= s then
      assert OccursAt(s, pat, 0);
      true
    else if |s| == 0 then
      false
    else
      var rest := Contains(s[1..], pat);
      ShiftOccurrence(s, pat);
      rest
  }

  /** An occurrence past position 0 is an occurrence in the tail, one position earlier. */
  lemma ShiftOccurrence(s: string, pat: string)
    requires |s| > 0 && !(pat <= s)
    ensures (exists i: nat :: OccursAt(s, pat, i)) <==> (exists i: nat :: OccursAt(s[1..], pat, i))
  {
    assert OccursAt(s, pat, 0) ==> pat <= s;
    if i: nat :| OccursAt(s, pat, i) {
      assert s[1..][i - 1..i - 1 + |pat|] == s[i..i + |pat|];
      assert OccursAt(s[1..], pat, i - 1);
    }
    if i: nat :| OccursAt(s[1..], pat, i) {
      assert s[1..][i..i + |pat|] == s[i + 1..i + 1 + |pat|];
      assert OccursAt(s, pat, i + 1);
    }
  }

  /** Number of occurrences of `c` in `s`. */
  function CountChar(s: string, c: char): nat {
    if |s| == 0 then 0 else (if s[0] == c then 1 else 0) + CountChar(s[1..], c)
  }

  lemma {:induction false} CountCharAppend(a: string, b: string, c: char)
    ensures CountChar(a + b, c) == CountChar(a, c) + CountChar(b, c)
    decreases |a|
  {
    if |a| == 0 {
      assert a + b == b;
    } else {
      assert (a + b)[1..] == a[1..] + b;
      CountCharAppend(a[1..], b, c);
    }
  }

  lemma {:induction false} CountCharAbsent(s: string, c: char)
    requires c !in s
    ensures CountChar(s, c) == 0
    decreases |s|
  {
    if |s| > 0 {
      assert c !in s[1..] by {
        forall i | 0 <= i < |s[1..]| ensures s[1..][i] != c {
          assert s[1..][i] == s[i + 1];
        }
      }
      CountCharAbsent(s[1..], c);
    }
  }

  /** Position of the first `c` in `s` (Python's `str.find`, with `None` for -1). */
  function IndexOf(s: string, c: char): (r: Option<nat>)
    ensures r.None? <==> c !in s
    ensures r.Some? ==> r.value < |s| && s[r.value] == c && c !in s[..r.value]
    decreases |s|
  {
    if |s| == 0 then None
    else if s[0] == c then
      assert s[..0] == [];
      Some(0)
    else
      match IndexOf(s[1..], c)
      case None =>
        assert s == [s[0]] + s[1..];
        None
      case Some(i) =>
        assert s[..i + 1] == [s[0]] + s[1..][..i];
        Some(i + 1)
  }

  /** Position of the last `c` in `s` (Python's `str.rfind`, with `None` for -1). */
  function LastIndexOf(s: string, c: char): (r: Option<nat>)
    ensures r.None? <==> c !in s
    ensures r.Some? ==> r.value < |s| && s[r.value] == c && c !in s[r.value + 1..]
    decreases |s|
  {
    if |s| == 0 then None
    else if s[|s| - 1] == c then
      assert s[|s|..] == [];
      Some(|s| - 1)
    else
      match LastIndexOf(s[..|s| - 1], c)
      case None =>
        assert s == s[..|s| - 1] + [s[|s| - 1]];
        None
      case Some(i) =>
        assert s[i + 1..] == s[..|s| - 1][i + 1..] + [s[|s| - 1]];
        Some(i)
  }

  lemma NoneBefore(s: string, c: char, i: nat)
    requires i <= |s| && c !in s[..i]
    ensures forall k :: 0 <= k < i ==> s[k] != c
  {
    forall k | 0 <= k < i ensures s[k] != c {
      assert s[..i][k] == s[k];
    }
  }

  lemma NoneAfter(s: string, c: char, i: int)
    requires -1 <= i < |s| && c !in s[i + 1..]
    ensures forall k :: i < k < |s| ==> s[k] != c
  {
    forall k | i < k < |s| ensures s[k] != c {
      assert s[i + 1..][k - i - 1] == s[k];
    }
  }

  /** The first occurrence of `c` is the unique `c` with no `c` before it. */
  lemma FirstIndexUnique(s: string, c: char, i: nat)
    requires i < |s| && s[i] == c && c !in s[..i]
    ensures IndexOf(s, c) == Some(i)
  {
    var j := IndexOf(s, c).value;
    NoneBefore(s, c, i);
    NoneBefore(s, c, j);
  }

  /** The last occurrence of `c` is the unique `c` with no `c` after it. */
  lemma LastIndexUnique(s: string, c: char, i: nat)
    requires i < |s| && s[i] == c && c !in s[i + 1..]
    ensures LastIndexOf(s, c) == Some(i)
  {
    var j := LastIndexOf(s, c).value;
    NoneAfter(s, c, i);
    NoneAfter(s, c, j);
  }

  /** Python's `s.split(c, 1)[-1]`: what follows the first `c`, or all of `s` without one. */
  function AfterFirst(s: string, c: char): (r: string)
    ensures c !in s ==> r == s
    ensures c in s ==>
      && |r| < |s|
      && s[|s| - |r|..] == r
      && s[|s| - |r| - 1] == c
      && c !in s[..|s| - |r| - 1]
  {
    match IndexOf(s, c)
    case None => s
    case Some(i) => s[i + 1..]
  }

  /** Python's `s.rsplit(c, 1)[0]`: what precedes the last `c`, or all of `s` without one. */
  function BeforeLast(s: string, c: char): (r: string)
    ensures c !in s ==> r == s
    ensures c in s ==> r < s && s[|r|] == c && c !in s[|r| + 1..]
  {
    match LastIndexOf(s, c)
    case None => s
    case Some(i) => s[..i]
  }

  /** `AfterFirst` cuts at the first `c`, whatever follows it. */
  lemma AfterFirstAt(p: string, c: char, rest: string)
    requires c !in p
    ensures AfterFirst(p + [c] + rest, c) == rest
  {
    var s := p + [c] + rest;
    assert s[..|p|] == p;
    FirstIndexUnique(s, c, |p|);
    assert s[|p| + 1..] == rest;
  }

  /** `BeforeLast` cuts at the last `c`, whatever precedes it. */
  lemma BeforeLastAt(rest: string, c: char, t: string)
    requires c !in t
    ensures BeforeLast(rest + [c] + t, c) == rest
  {
    var s := rest + [c] + t;
    assert s[|rest| + 1..] == t;
    LastIndexUnique(s, c, |rest|);
    assert s[..|rest|] == rest;
  }

  /** Inverse of `Split`: the pieces glued back together with `c` between them. */
  function Join(parts: seq<string>, c: char): string
    decreases |parts|
  {
    if |parts| == 0 then []
    else if |parts| == 1 then parts[0]
    else parts[0] + [c] + Join(parts[1..], c)
  }

  /** Cutting at the first `c` removes exactly one `c`. */
  lemma CountAtFirst(s: string, c: char, i: nat)
    requires i < |s| && s[i] == c && c !in s[..i]
    ensures CountChar(s, c) == CountChar(s[i + 1..], c) + 1
    ensures s == s[..i] + [c] + s[i + 1..]
  {
    assert s == s[..i] + ([c] + s[i + 1..]);
    CountCharAppend(s[..i], [c] + s[i + 1..], c);
    CountCharAppend([c], s[i + 1..], c);
    CountCharAbsent(s[..i], c);
  }

  /** Python's `s.split(c)` for a one-character separator; empty pieces are kept. */
  function Split(s: string, c: char): (parts: seq<string>)
    ensures |parts| == CountChar(s, c) + 1
    ensures forall i :: 0 <= i < |parts| ==> c !in parts[i]
    ensures Join(parts, c) == s
    decreases |s|
  {
    match IndexOf(s, c)
    case None =>
      CountCharAbsent(s, c);
      [s]
    case Some(i) =>
      var rest := Split(s[i + 1..], c);
      CountAtFirst(s, c, i);
      assert ([s[..i]] + rest)[1..] == rest;
      [s[..i]] + rest
  }

  /**
   * `Split` is the only way to cut `s` into `c`-free pieces that join back to
   * `s`, so its contract above determines it completely.
   */
  lemma {:induction false} SplitUnique(parts: seq<string>, c: char)
    requires |parts| >= 1
    requires forall i :: 0 <= i < |parts| ==> c !in parts[i]
    ensures Split(Join(parts, c), c) == parts
    decreases |parts|
  {
    var s := Join(parts, c);
    if |parts| == 1 {
      assert s == parts[0];
    } else {
      var rest := parts[1..];
      var tail := Join(rest, c);
      assert s == parts[0] + [c] + tail;
      assert s[..|parts[0]|] == parts[0];
      FirstIndexUnique(s, c, |parts[0]|);
      assert s[|parts[0]| + 1..] == tail;
      SplitUnique(rest, c);
      assert parts == [parts[0]] + rest;
    }
  }

  /** Python's `s.rstrip(c)`: drop every trailing `c`. */
  function RStrip(s: string, c: char): (r: string)
    ensures r <= s
    ensures |r| == 0 || r[|r| - 1] != c
    ensures forall i :: |r| <= i < |s| ==> s[i] == c
    decreases |s|
  {
    if |s| > 0 && s[|s| - 1] == c then RStrip(s[..|s| - 1], c) else s
  }

  /** Stripping a character that does not occur changes nothing. */
  lemma RStripAbsent(s: string, c: char)
    requires c !in s
    ensures RStrip(s, c) == s
  {
    var r := RStrip(s, c);
    assert forall k :: 0 <= k < |s| ==> s[k] != c;
  }

  /** ASCII upper-casing of one character; other characters are left alone. */
  function UpperChar(ch: char): char {
    if 'a' <= ch <= 'z' then (ch as int - 32) as char else ch
  }

  /** Python's `str.upper()` restricted to the ASCII letters. */
  function Upper(s: string): (r: string)
    ensures |r| == |s|
    ensures forall i :: 0 <= i < |s| ==> !('a' <= r[i] <= 'z')
    ensures forall i :: 0 <= i < |s| && 'a' <= s[i] <= 'z' ==> r[i] as int == s[i] as int - 32
    ensures forall i :: 0 <= i < |s| && !('a' <= s[i] <= 'z') ==> r[i] == s[i]
  {
    seq(|s|, i requires 0 <= i < |s| => UpperChar(s[i]))
  }

  /** Upper-casing twice is upper-casing once. */
  lemma UpperIdempotent(s: string)
    ensures Upper(Upper(s)) == Upper(s)
  {
    var u := Upper(s);
    assert forall i :: 0 <= i < |u| ==> Upper(u)[i] == u[i];
  }
}

=== FILE: translator.dfy ===
/**
 * The retry policy wrapped around the external translation service
 * (`GoogleTranslatorWrapper.translate`). The service itself is an oracle:
 * the sequence of its responses to successive attempts for one text.
 */
module Translator {

  /** Number of attempts before giving up. */
  const MaxRetries: nat := 3
  /** Seconds slept after every failed attempt, the last one included. */
  const RetryDelaySeconds: nat := 2

  /**
   * One response of the service: a translation, a `RequestError`, or any
   * other exception. A response missing from the oracle counts as the latter.
   */
  datatype Response = Translated(text: string) | RequestError | UnexpectedError

  /** The observable effects of one call: attempts and the sleeps between them. */
  datatype Step = Attempt(index: nat) | Sleep(seconds: nat)

  datatype Translation = Translation(text: string, steps: seq<Step>)

  function ResponseAt(responses: seq<Response>, k: nat): Response {
    if k < |responses| then responses[k] else UnexpectedError
  }

  ghost predicate SucceedsAt(responses: seq<Response>, k: nat) {
    ResponseAt(responses, k).Translated?
  }

  /** Every attempt with index in `[lo, hi)` fails. */
  ghost predicate FailsBetween(responses: seq<Response>, lo: nat, hi: nat) {
    forall j :: lo <= j < hi ==> !SucceedsAt(responses, j)
  }

  function Attempts(steps: seq<Step>): nat {
    if |steps| == 0 then 0 else (if steps[0].Attempt? then 1 else 0) + Attempts(steps[1..])
  }

  function Sleeps(steps: seq<Step>): nat {
    if |steps| == 0 then 0 else (if steps[0].Sleep? then 1 else 0) + Sleeps(steps[1..])
  }

  function TotalDelay(steps: seq<Step>): nat {
    if |steps| == 0 then 0 else (if steps[0].Sleep? then steps[0].seconds else 0) + TotalDelay(steps[1..])
  }

  lemma {:induction false} CountsAppend(a: seq<Step>, b: seq<Step>)
    ensures Attempts(a + b) == Attempts(a) + Attempts(b)
    ensures Sleeps(a + b) == Sleeps(a) + Sleeps(b)
    ensures TotalDelay(a + b) == TotalDelay(a) + TotalDelay(b)
    decreases |a|
  {
    if |a| == 0 {
      assert a + b == b;
    } else {
      assert (a + b)[1..] == a[1..] + b;
      CountsAppend(a[1..], b);
    }
  }

  /**
   * The failed attempts `k` up to `m`, each followed at once by the pause
   * before the next try.
   */
  function RetryTrace(k: nat, m: nat): seq<Step>
    decreases m - k
  {
    if k >= m then [] else [Attempt(k), Sleep(RetryDelaySeconds)] + RetryTrace(k + 1, m)
  }

  /** The attempts from index `k` on, until one succeeds or the budget runs out. */
  function TranslateFrom(text: string, responses: seq<Response>, k: nat): Translation
    requires k <= MaxRetries
    decreases MaxRetries - k
  {
    if k == MaxRetries then
      Translation(text, [])
    else
      match ResponseAt(responses, k)
      case Translated(t) => Translation(t, [Attempt(k)])
      case _ =>
        var rest := TranslateFrom(text, responses, k + 1);
        Translation(rest.text, [Attempt(k), Sleep(RetryDelaySeconds)] + rest.steps)
  }

  /** Attempt `m` is the first to succeed from `k` on. */
  lemma {:induction false} SucceedsFrom(text: string, responses: seq<Response>, k: nat, m: nat)
    requires k <= m < MaxRetries && SucceedsAt(responses, m) && FailsBetween(responses, k, m)
    ensures TranslateFrom(text, responses, k).text == ResponseAt(responses, m).text
    ensures Attempts(TranslateFrom(text, responses, k).steps) == m - k + 1
    ensures Sleeps(TranslateFrom(text, responses, k).steps) == m - k
    ensures TotalDelay(TranslateFrom(text, responses, k).steps) == RetryDelaySeconds * (m - k)
    ensures TranslateFrom(text, responses, k).steps == RetryTrace(k, m) + [Attempt(m)]
    decreases m - k
  {
    if k < m {
      assert !SucceedsAt(responses, k);
      SucceedsFrom(text, responses, k + 1, m);
      RetryPrefix(text, responses, k);
      var pre := [Attempt(k), Sleep(RetryDelaySeconds)];
      assert pre + (RetryTrace(k + 1, m) + [Attempt(m)]) == (pre + RetryTrace(k + 1, m)) + [Attempt(m)];
    } else {
      var once := [Attempt(k)];
      assert once[1..] == [];
      assert once[0].Attempt?;
      assert TranslateFrom(text, responses, k).steps == once;
    }
  }

  /** Every attempt from `k` on fails. */
  lemma {:induction false} ExhaustedFrom(text: string, responses: seq<Response>, k: nat)
    requires k <= MaxRetries && FailsBetween(responses, k, MaxRetries)
    ensures TranslateFrom(text, responses, k).text == text
    ensures Attempts(TranslateFrom(text, responses, k).steps) == MaxRetries - k
    ensures Sleeps(TranslateFrom(text, responses, k).steps) == MaxRetries - k
    ensures TotalDelay(TranslateFrom(text, responses, k).steps) == RetryDelaySeconds * (MaxRetries - k)
    ensures TranslateFrom(text, responses, k).steps == RetryTrace(k, MaxRetries)
    decreases MaxRetries - k
  {
    if k < MaxRetries {
      assert !SucceedsAt(responses, k);
      ExhaustedFrom(text, responses, k + 1);
      RetryPrefix(text, responses, k);
    }
  }

  /** A failed attempt contributes one attempt and one sleep in front of the rest. */
  lemma RetryPrefix(text: string, responses: seq<Response>, k: nat)
    requires k < MaxRetries && !SucceedsAt(responses, k)
    ensures var r := TranslateFrom(text, responses, k);
      var rest := TranslateFrom(text, responses, k + 1);
      && r.text == rest.text
      && Attempts(r.steps) == Attempts(rest.steps) + 1
      && Sleeps(r.steps) == Sleeps(rest.steps) + 1
      && TotalDelay(r.steps) == TotalDelay(rest.steps) + RetryDelaySeconds
  {
    var pre := [Attempt(k), Sleep(RetryDelaySeconds)];
    assert pre[1..][1..] == [];
    assert pre[0].Attempt? && pre[1..][0].Sleep?;
    CountsAppend(pre, TranslateFrom(text, responses, k + 1).steps);
  }

  /**
   * `translate(text)`: the first successful attempt's text, after exactly
   * one attempt more than the failures before it and one sleep right after
   * each failure; the original text after three failed attempts, each
   * followed by its sleep.
   */
  function Translate(text: string, responses: seq<Response>): (r: Translation)
    ensures forall m :: 0 <= m < MaxRetries && SucceedsAt(responses, m) && FailsBetween(responses, 0, m) ==>
      && r.text == ResponseAt(responses, m).text
      && Attempts(r.steps) == m + 1
      && Sleeps(r.steps) == m
      && TotalDelay(r.steps) == RetryDelaySeconds * m
      && r.steps == RetryTrace(0, m) + [Attempt(m)]
    ensures FailsBetween(responses, 0, MaxRetries) ==>
      && r.steps == RetryTrace(0, MaxRetries)
      && r.text == text
      && Attempts(r.steps) == MaxRetries
      && Sleeps(r.steps) == MaxRetries
      && TotalDelay(r.steps) == RetryDelaySeconds * MaxRetries
  {
    TranslateSpec(text, responses);
    TranslateFrom(text, responses, 0)
  }

  lemma TranslateSpec(text: string, responses: seq<Response>)
    ensures forall m :: 0 <= m < MaxRetries && SucceedsAt(responses, m) && FailsBetween(responses, 0, m) ==>
      && TranslateFrom(text, responses, 0).text == ResponseAt(responses, m).text
      && Attempts(TranslateFrom(text, responses, 0).steps) == m + 1
      && Sleeps(TranslateFrom(text, responses, 0).steps) == m
      && TotalDelay(TranslateFrom(text, responses, 0).steps) == RetryDelaySeconds * m
      && TranslateFrom(text, responses, 0).steps == RetryTrace(0, m) + [Attempt(m)]
    ensures FailsBetween(responses, 0, MaxRetries) ==>
      && TranslateFrom(text, responses, 0).steps == RetryTrace(0, MaxRetries)
      && TranslateFrom(text, responses, 0).text == text
      && Attempts(TranslateFrom(text, responses, 0).steps) == MaxRetries
      && Sleeps(TranslateFrom(text, responses, 0).steps) == MaxRetries
      && TotalDelay(TranslateFrom(text, responses, 0).steps) == RetryDelaySeconds * MaxRetries
  {
    forall m | 0 <= m < MaxRetries && SucceedsAt(responses, m) && FailsBetween(responses, 0, m) {
      SucceedsFrom(text, responses, 0, m);
    }
    if FailsBetween(responses, 0, MaxRetries) {
      ExhaustedFrom(text, responses, 0);
    }
  }

  /** Two oracles that succeed at the same attempts with the same texts. */
  ghost predicate SameSuccesses(r1: seq<Response>, r2: seq<Response>) {
    forall k :: 0 <= k < MaxRetries ==>
      (SucceedsAt(r1, k) || SucceedsAt(r2, k)) ==> ResponseAt(r1, k) == ResponseAt(r2, k)
  }

  /**
   * The kind of failure makes no difference: oracles that differ only in
   * which exception they raise give the same text and the same trace.
   */
  lemma {:induction false} ErrorKindsAlike(text: string, r1: seq<Response>, r2: seq<Response>, k: nat)
    requires k <= MaxRetries
    requires SameSuccesses(r1, r2)
    ensures TranslateFrom(text, r1, k) == TranslateFrom(text, r2, k)
    decreases MaxRetries - k
  {
    if k < MaxRetries {
      ErrorKindsAlike(text, r1, r2, k + 1);
    }
  }

  /** A service that always fails: the text comes back unchanged after three attempts. */
  lemma AlwaysFailingService(text: string, responses: seq<Response>)
    requires forall k :: 0 <= k < |responses| ==> !responses[k].Translated?
    ensures Translate(text, responses).text == text
    ensures Attempts(Translate(text, responses).steps) == MaxRetries
    ensures Sleeps(Translate(text, responses).steps) == MaxRetries
  {
    assert FailsBetween(responses, 0, MaxRetries);
  }
}

=== FILE: wrappers.dfy ===
/** The optional-value datatype the rest of the model uses for Python's `None`. */
module Wrappers {

  /** `None` stands for a missing element, attribute or answer. */
  datatype Option<+T> = None | Some(value: T)

  /** A map lookup in the style of Python's `dict.get`. */
  function Get<K, V>(m: map<K, V>, k: K): (r: Option<V>)
    ensures r.Some? <==> k in m
    ensures r.Some? ==> r.value == m[k]
  {
    if k in m then Some(m[k]) else None
  }

  /**
   * All the values when every entry is present, in order; `None` as soon as
   * one is missing (a list comprehension that dereferences each entry).
   */
  function AllPresent<T>(xs: seq<Option<T>>): (r: Option<seq<T>>)
    ensures r.Some? <==> forall i :: 0 <= i < |xs| ==> xs[i].Some?
    ensures r.Some? ==> |r.value| == |xs| && forall i :: 0 <= i < |xs| ==> r.value[i] == xs[i].value
    decreases |xs|
  {
    if |xs| == 0 then Some([])
    else if xs[0].None? then None
    else
      match AllPresent(xs[1..])
      case None => None
      case Some(rest) => Some([xs[0].value] + rest)
  }
}
